=== FILE: README.md ===
# AJ-OS client logic in Dafny

A model of the small pure core of the AJ-OS web client, with proofs about it:

- **Input sanitisation and rate limiting** (`src/lib/security.ts`): `sanitizeText`,
  `sanitizeUrl`, `sanitizeEmail`, `sanitizeObject`, `isValidUUID`, `maskSensitive` and
  the sliding-window `RateLimiter` (module `Security`, module `RateLimiting`).
- **12-hour/24-hour conversion in the time picker** (`CustomTimePicker.tsx`): the
  initialisers that read an "HH:MM" value, the trigger label, the value Apply emits,
  the quick-select presets and Clear (module `TimePicker`).
- **Calendar grid and navigation in the date picker** (`CustomDatePicker.tsx`): the month
  grid, the "YYYY-MM-DD" value a click or Today emits, previous/next month and the
  popup's viewport clamp (module `DatePicker`). These rest on a model of ECMAScript's
  proleptic Gregorian day arithmetic: `MakeDay`, `getDay` and the "day 0 of the next
  month" idiom (module `Calendar`).
- **The command palette** (`CommandBar.tsx`): the five commands, the case-insensitive
  substring filter and what Enter fires (module `CommandBar`).

Supporting modules:

- `Text` models the JavaScript string built-ins the code uses: `trim`, `toLowerCase`,
  `includes`, `startsWith`, `slice`, `String(n)` and `padStart`.
- `Numbers` holds `Math.max` and `Math.min`.
- `Wrappers` holds `Option`.

Everything is a pure function over immutable values. The mutable limiter becomes a record
that each call returns. The clock, the URL parser and Unicode normalisation become
parameters. UI events become an `Event` datatype and a `Handle` function per picker.

`sanitizeText` trims before it cuts to 10000 characters (src/lib/security.ts:21-23), so
its result can end in whitespace when the cut lands just after a space.
`Security.SanitizeTextKeepsTrailingSpace` exhibits such an input, and the contract of
`Security.SanitizeText` promises only "no leading whitespace".

## Model

| member | source | states |
|---|---|---|
| Security.RemoveNul | src/lib/security.ts:17 | the result has no NUL, keeps every other character with its multiplicity, and is the input itself when there was no NUL |
| Security.RemoveNulConcat | src/lib/security.ts:17 | removing NULs from a concatenation concatenates the two results, so the kept characters stay in order |
| Security.SanitizeText | src/lib/security.ts:12-23 | "" for empty input; otherwise a prefix of trim(normalize(input without NULs)), the whole of it when at most 10000 long and exactly 10000 characters otherwise; never longer than 10000; no leading whitespace; NUL-free whenever the normaliser keeps NUL-free text NUL-free |
| Security.SanitizeTextKeepsTrailingSpace | src/lib/security.ts:21-23 | an input of 9999 letters, a space and a letter comes out ending in a space, because the cut follows the trim |
| Security.SanitizeUrl | src/lib/security.ts:29-58 | "" for empty input; a parse of the trimmed input gives its href when the protocol is http:, https: or mailto: and "" otherwise; an unparsable relative path ("/" or "./") is returned trimmed; any other unparsable input without "://" gives the href of "https://"+input or ""; everything else gives "" |
| Security.SanitizeUrlOnlyAllowedSchemes | src/lib/security.ts:35-55 | a non-empty result is either the trimmed relative path the parser rejected or the href of a parse whose protocol is in the allow-list |
| Security.MatchesEmailPattern | src/lib/security.ts:70-71 | defines the test of `/^[^\s@]+@[^\s@]+\.[^\s@]+$/`: the string splits as A "@" B "." C with A, B and C non-empty and free of whitespace and '@' |
| Security.PatternImpliesWellFormed | src/lib/security.ts:70 | every string the email pattern accepts has no whitespace, exactly one '@', a non-empty local part, and a domain of length at least 3 with a '.' that is neither its first nor its last character |
| Security.WellFormedImpliesPattern | src/lib/security.ts:70 | every such well-formed address is accepted by the pattern |
| Security.EmailPatternIffWellFormed | src/lib/security.ts:70 | the pattern accepts exactly the well-formed addresses |
| Security.SanitizeEmail | src/lib/security.ts:64-76 | the result is "" or exactly lower(trim(input)); it is non-empty iff lower(trim(input)) matches the pattern; a non-empty result is a well-formed address |
| Security.SanitizeEmailIdempotent | src/lib/security.ts:64-76 | sanitising an already sanitised address returns it unchanged |
| Security.SanitizeEmailAcceptsExample | src/lib/security.ts:67-75 | "  User@Example.COM " is accepted as "user@example.com" |
| Security.SanitizeEmailRejectsExample | src/lib/security.ts:70-73 | "not-an-email" is rejected as "" |
| Security.KindOf | src/lib/security.ts:91-97 | a key is treated as a URL field iff it is in urlFields, and as an email field iff it is in emailFields but not urlFields, so urlFields wins |
| Security.SanitizeObject | src/lib/security.ts:81-102 | the result has exactly the input's keys; each value goes through sanitizeUrl, sanitizeEmail or sanitizeText by the priority rule; the input map is a value and is not changed |
| Security.MatchesUuidPattern | src/lib/security.ts:144 | defines the case-insensitive UUID pattern group by group: 8, 4, 4, 4 and 12 hex digits separated by '-', the third group starting 1..5 and the fourth 8, 9, a or b |
| Security.IsValidUuid | src/lib/security.ts:143-146 | accepts iff the string has length 36, '-' at 8, 13, 18 and 23, hex digits of either case elsewhere, '1'..'5' at 14 and one of 8, 9, a, b, A, B at 19 |
| Security.MaskSensitive | src/lib/security.ts:158-161 | "***" for empty data or data no longer than visibleChars; for 0 < v < length, the first v characters, "***" and the last v, of length 2v+3; for v = 0, "***" followed by the whole data; for negative v, the data without its last -v characters, "***" and the data from index -v on, or just "***" when -v reaches the length |
| Security.MaskDefaultRevealsShortSecret | src/lib/security.ts:158-160 | with the default of 4, `"abcdef"` is masked as `"abcd***cdef"` |
| Security.MaskZeroRevealsAll | src/lib/security.ts:160 | with visibleChars 0 the mask ends with the entire data |
| Security.MaskOverlapRevealsAll | src/lib/security.ts:160 | when the data is at most twice visibleChars long, the shown prefix and suffix together spell out the whole data |
| Security.MaskSensitiveCorrected | src/lib/security.ts:158-161 | shows at most visibleChars characters at each end, always hides at least one character of non-empty data, and agrees with maskSensitive whenever the two ends do not meet |
| RateLimiting.Recent | src/lib/security.ts:120 | a time is kept iff it was logged and now - t < windowMs; each kept time keeps every repetition it had in the log, and nothing is added |
| RateLimiting.RecentConcat | src/lib/security.ts:120 | eviction of a concatenation is the concatenation of the evictions, so the survivors keep their order |
| RateLimiting.NewRateLimiter | src/lib/security.ts:106-115 | a new limiter has an empty log and the given limits, so at any time max(0, maxRequests) requests remain and the first call is admitted iff maxRequests > 0 |
| RateLimiting.CanMakeRequest | src/lib/security.ts:117-128 | evicts expired times; admits iff fewer than maxRequests remain; an admission logs now after the survivors, a refusal leaves just the survivors; a log within maxRequests stays within it |
| RateLimiting.GetRemainingRequests | src/lib/security.ts:130-134 | returns max(0, maxRequests - survivors), which lies in [0, maxRequests] for maxRequests >= 0; it only evicts and never logs |
| RateLimiting.RecentIdempotent | src/lib/security.ts:132 | evicting twice at the same time evicts nothing more |
| RateLimiting.RecentLater | src/lib/security.ts:120 | evicting at an earlier time and then at now is the same as evicting at now |
| RateLimiting.RecentAppendNow | src/lib/security.ts:120-126 | a time just logged survives eviction at that time when the window is positive |
| RateLimiting.RemainingStable | src/lib/security.ts:130-134 | two remaining-count queries at the same now give the same count |
| RateLimiting.AdmissionUsesOneSlot | src/lib/security.ts:117-134 | an admission lowers the remaining count at that time by exactly one |
| RateLimiting.RefusalMeansNoneRemaining | src/lib/security.ts:122-133 | when a request is refused, no request remains |
| RateLimiting.TwoPerSecondExample | src/lib/security.ts:117-128 | two per second: calls at 0, 100, 200 and 1200 ms are admitted, admitted, refused, admitted |
| RateLimiting.Replay | src/lib/security.ts:117-128 | replaying calls keeps the limiter's two limits |
| RateLimiting.ReplayWithinBound | src/lib/security.ts:117-128 | from a fresh limiter the log never holds more than maxRequests times |
| RateLimiting.CountWithinRecent | src/lib/security.ts:120 | admissions inside an interval ending by now and shorter than the window all survive eviction at now |
| RateLimiting.StepKeepsInvariant | src/lib/security.ts:117-128 | one more call, at a time no earlier than the last, keeps the sliding-window invariant |
| RateLimiting.ReplayKeepsInvariant | src/lib/security.ts:117-128 | replaying a non-decreasing clock from a fresh limiter keeps the invariant: the log is exactly the admitted times still in the window |
| RateLimiting.SlidingWindow | src/lib/security.ts:117-128 | with a non-decreasing clock, any interval shorter than windowMs contains at most maxRequests admitted calls |
| RateLimiting.BackwardClockExceedsWindow | src/lib/security.ts:117-128 | the window bound needs a non-decreasing clock: with two per second and calls at 0, 0, 2000 and 10, three calls within 0..10 are admitted |
| RateLimiting.GlobalLimiterThirtyPerMinute | src/lib/security.ts:137-138 | with a clock that never runs backwards, the application-wide limiter admits at most 30 calls within any span shorter than a minute |
| Text.Trim | src/lib/security.ts:21 | the result is the input with a run of whitespace removed at each end, and neither starts nor ends with whitespace, so the removed runs are the longest ones |
| Text.ToLower | src/lib/security.ts:67 | same length, every character lower-cased |
| Text.ToLowerIdempotent | src/lib/security.ts:67 | lower-casing twice equals lower-casing once |
| Text.Includes | src/components/CommandBar.tsx:32-33 | defines `includes`: the needle occurs as a contiguous factor of the haystack |
| Text.StartsWith | src/lib/security.ts:45 | defines `startsWith`: the string's first characters are the prefix |
| Text.IncludesTransitive | src/components/CommandBar.tsx:31-34 | a factor of a factor is a factor |
| Text.IncludesToLower | src/components/CommandBar.tsx:31-34 | lower-casing both sides keeps a factor a factor |
| Text.DigitsValue | src/components/CustomTimePicker.tsx:14 | defines `parseInt` on a run of decimal digits: ten times the value of all but the last digit, plus the last |
| Text.TwoDigitsValue | src/components/CustomTimePicker.tsx:14 | parseInt of two digits is ten times the first plus the second, below 100 |
| Text.Decimal | src/components/CustomTimePicker.tsx:48 | String(n) is all digits, reads back as n, and has no leading zero |
| Text.PadStart | src/components/CustomTimePicker.tsx:48 | the result has the wanted width (or the input's length), ends with the input, and is filled in front |
| Text.Pad2 | src/components/CustomTimePicker.tsx:48 | below 100 the padded number is exactly two digits that read back as the number |
| Text.Pad2Digits | src/components/CustomTimePicker.tsx:48 | below 100 the padded number is its tens digit followed by its units digit |
| Text.RelativeIndex | src/lib/security.ts:160 | slice positions count negative offsets from the end, and positions past either end clamp to 0 or to the length |
| Text.Slice | src/lib/security.ts:160 | slice(start, end) is the plain subsequence for in-range positions; a negative end counts from the end, and an end at or before the start of the string gives "" |
| Text.SliceFrom | src/lib/security.ts:160 | slice(start) is the suffix from start, or the last -start characters for a negative start; "" from the length on, and the whole string below minus the length |
| Numbers.Max | src/lib/security.ts:133 | Math.max is one of its arguments and at least both |
| Numbers.Min | src/lib/security.ts:23 | the bound `slice(0, 10000)` cuts at is one of its arguments and at most both |
| TimePicker.HourField | src/components/CustomTimePicker.tsx:13-14 | the hour field of "HH:MM" reads below 100 |
| TimePicker.MinuteField | src/components/CustomTimePicker.tsx:21-22 | the minute field of "HH:MM" reads below 100 |
| TimePicker.InitialHours | src/components/CustomTimePicker.tsx:11-18 | 12 for an empty value; for a stored hour 0..23 the dial hour is in 1..12 and congruent to it modulo 12 |
| TimePicker.InitialMinutes | src/components/CustomTimePicker.tsx:19-23 | 0 for an empty value, else the minute field |
| TimePicker.InitialPeriod | src/components/CustomTimePicker.tsx:24-28 | PM for an empty value; otherwise PM iff the hour is at least 12 |
| TimePicker.InitialSelection | src/components/CustomTimePicker.tsx:11-28 | an empty value opens on 12:00 PM; a time of day opens on a selection the dial offers |
| TimePicker.FormatDisplayTime | src/components/CustomTimePicker.tsx:33-41 | "Select time" for an empty value; otherwise the initialiser's 12-hour number, ':', the minute text copied verbatim, a space and the initialiser's period |
| TimePicker.Hour24 | src/components/CustomTimePicker.tsx:44-46 | for dial hours 1..12 the 24-hour hour is in 0..23, below 12 exactly for AM, and congruent to the dial hour modulo 12 |
| TimePicker.ApplyTime | src/components/CustomTimePicker.tsx:43-48 | for a selection the dial offers, the emitted string is a time of day "HH:MM" whose fields read back as the 24-hour hour and the minute |
| TimePicker.ApplyInitialRoundTrip | src/components/CustomTimePicker.tsx:11-48 | opening on a time of day and applying unchanged emits that same string |
| TimePicker.InitialApplyRoundTrip | src/components/CustomTimePicker.tsx:11-48 | every dial selection is recovered by the initialisers from the string it emits |
| TimePicker.MountOnApplied | src/components/CustomTimePicker.tsx:10-48 | a picker first shown with the value Apply emitted for a dial selection is closed and shows that selection |
| TimePicker.Handle | src/components/CustomTimePicker.tsx:87-241 | Apply emits the applied time and closes; Clear emits "" and closes; both keep the selection; no other event emits; the trigger toggles and the backdrop closes, selection unchanged; an hour, minute or period button replaces just that field; a preset replaces the whole selection; every event the rendered picker offers keeps the selection one the dial offers |
| TimePicker.PresetSelection | src/components/CustomTimePicker.tsx:205-218 | a preset button sets a selection the dial offers |
| TimePicker.PresetApplyTime | src/components/CustomTimePicker.tsx:205-218 | the presets 9 AM, 12 PM, 3 PM and 6 PM apply as "09:00", "12:00", "15:00" and "18:00" |
| TimePicker.PresetsEmit | src/components/CustomTimePicker.tsx:205-241 | picking a preset and pressing Apply emits that preset's "HH:MM" |
| Calendar.DayFromYear | src/components/CustomDatePicker.tsx:95-96 | defines the day number of January 1 of a year as ECMAScript counts it from 1970 |
| Calendar.MakeDay | src/components/CustomDatePicker.tsx:95-96 | defines the day number `new Date(year, month, date)` denotes once the year is taken as given: the month moves the year by whole years, the date may be 0 or past the month's end |
| Calendar.YearLength | src/components/CustomDatePicker.tsx:96-97 | a year is 366 days long exactly when it is divisible by 4 and not by 100, or divisible by 400 |
| Calendar.GregorianMonthLength | src/components/CustomDatePicker.tsx:96-97 | the reference month length: 31 or 30 by month, February 29 iff leap and 28 otherwise |
| Calendar.DaysInMonth | src/components/CustomDatePicker.tsx:96-97 | the distance from the first of a month to day 0 of the next month, plus one, is the Gregorian month length |
| Calendar.WeekDay | src/components/CustomDatePicker.tsx:98 | getDay lies in 0..6 |
| Calendar.CalendarAnchors | src/components/CustomDatePicker.tsx:95-98 | 1970-01-01 is day 0 and a Thursday; 2000-01-01 is day 10957 and a Saturday |
| Calendar.WeekDayOfDate | src/components/CustomDatePicker.tsx:95-98 | day d of a month falls d - 1 weekdays after the month's first day |
| Calendar.NextMonthStart | src/components/CustomDatePicker.tsx:95-98 | the day after a month's last day is the first of the next month, which starts DaysInMonth weekdays later |
| DatePicker.StartingDayOfWeek | src/components/CustomDatePicker.tsx:95-98 | the number of leading blanks is in 0..6 |
| DatePicker.StartingDayOfWeekAsWritten | src/components/CustomDatePicker.tsx:95-98 | as written, the blank count agrees with StartingDayOfWeek outside view years 0..99 |
| DatePicker.GridOfDecember99 | src/components/CustomDatePicker.tsx:95-98 | as written, December of year 99 starts after 3 blanks, the layout of December 1999, where 99-12-01 needs 2 |
| DatePicker.MonthGrid | src/components/CustomDatePicker.tsx:92-111 | the grid is startingDayOfWeek blanks, then the days 1 to daysInMonth in order, at most 37 cells |
| DatePicker.DayUnderItsWeekday | src/components/CustomDatePicker.tsx:100-110 | in seven columns from Sunday, each day of the month stands in the column of its own weekday |
| DatePicker.GridContinues | src/components/CustomDatePicker.tsx:92-111 | the next month's grid starts in the column after this month's last day |
| DatePicker.YearText | src/components/CustomDatePicker.tsx:122 | a year from 1000 to 9999 prints as four digits that read back as the year |
| DatePicker.DateString | src/components/CustomDatePicker.tsx:119-122 | for years 1000..9999, months 0..11 and days below 100 the value has length 10 with '-' at 4 and 7, and its fields read back as the year, month+1 in 01..12, and the day |
| DatePicker.ParseDateString | src/components/CustomDatePicker.tsx:5 | an accepted "YYYY-MM-DD" has length 10, dashes at 4 and 7, and a month in 0..11 |
| DatePicker.DateStringRoundTrip | src/components/CustomDatePicker.tsx:119-122 | every valid date in years 1000..9999 is read back from the value it emits |
| DatePicker.MonthStart | src/components/CustomDatePicker.tsx:128-132 | the month normalised into the year is always 0..11 and is unchanged when already in range |
| DatePicker.MonthStartSameDay | src/components/CustomDatePicker.tsx:128-132 | the normalised view starts on the same day number as the date asked for |
| DatePicker.PreviousMonth | src/components/CustomDatePicker.tsx:127-129 | January goes to December of the previous year, any other month to the month before |
| DatePicker.NextMonth | src/components/CustomDatePicker.tsx:131-133 | December goes to January of the next year, any other month to the month after |
| DatePicker.NextUndoesPrevious | src/components/CustomDatePicker.tsx:127-133 | next after previous is the identity |
| DatePicker.PreviousUndoesNext | src/components/CustomDatePicker.tsx:127-133 | previous after next is the identity |
| DatePicker.ConstructorYear | src/components/CustomDatePicker.tsx:95-96 | the `Date` constructor reads a year of 0..99 as 1900 plus it and keeps every other year; the result is never a two-digit year |
| DatePicker.JsMonthStart | src/components/CustomDatePicker.tsx:128-132 | the constructor agrees with MonthStart outside years 0..99 |
| DatePicker.PreviousMonthAsWritten | src/components/CustomDatePicker.tsx:127-129 | as written, the previous-month button agrees with PreviousMonth outside years 0..99 |
| DatePicker.NextMonthAsWritten | src/components/CustomDatePicker.tsx:131-133 | as written, the next-month button agrees with NextMonth outside years 0..99 |
| DatePicker.TwoDigitYearJump | src/components/CustomDatePicker.tsx:127-133 | as written, previous then next from January of year 100 lands on January 2000 |
| DatePicker.UpdatePosition | src/components/CustomDatePicker.tsx:33-59 | left is never below 10; the popup goes 8 pixels below the button unless that overflows the bottom, and then it ends 8 pixels above the button or is held at 10; left is max(10, button's left) when the popup fits on the right and max(10, viewport width - 336) otherwise |
| DatePicker.PopupOverflowsRight | src/components/CustomDatePicker.tsx:47-53 | a button too close to the right edge puts the popup 16 pixels inside that edge in a viewport at least 346 pixels wide |
| DatePicker.PopupClampedAtTop | src/components/CustomDatePicker.tsx:42-45 | a popup that must open above a button less than 438 pixels from the top is held at top 10 |
| DatePicker.PopupFitsHorizontally | src/components/CustomDatePicker.tsx:48-53 | in a viewport at least 330 pixels wide the popup lies wholly inside it horizontally |
| DatePicker.PopupAlignsWithButton | src/components/CustomDatePicker.tsx:40-53 | a button with room on its right keeps the popup aligned with its left edge |
| DatePicker.PopupFitsVertically | src/components/CustomDatePicker.tsx:39-45 | with the button's top on screen and a viewport at least 430 pixels tall, the popup does not run past the bottom |
| DatePicker.PopupAboveClearsButton | src/components/CustomDatePicker.tsx:43-45 | placed above a button with room above it, the popup ends 8 pixels above the button |
| DatePicker.Handle | src/components/CustomDatePicker.tsx:119-276 | a day click emits that day of the shown month and closes; Today emits today's date, shows today's month and closes; Clear emits ""; previous/next move the view; the trigger toggles open, the backdrop and Escape close, and neither changes the view or emits; the view stays valid |
| DatePicker.TodayMatchesClick | src/components/CustomDatePicker.tsx:119-140 | Today emits exactly what clicking today's cell emits once today's month is shown |
| CommandBar.Matches | src/components/CommandBar.tsx:31-34 | defines the filter's test: the lower-cased caption or key contains the lower-cased input |
| CommandBar.Filter | src/components/CommandBar.tsx:31-34 | a command is kept iff its lower-cased caption or key contains the lower-cased input; the result is an order-preserving subsequence of the list |
| CommandBar.FilterKeepsAllMatching | src/components/CommandBar.tsx:31-34 | when every command matches, the filter keeps the list as it is |
| CommandBar.FilterDropsAllFailing | src/components/CommandBar.tsx:31-34 | when no command matches, the filter is empty |
| CommandBar.EmptyInputKeepsAll | src/components/CommandBar.tsx:23-34 | empty input keeps all five commands in declared order |
| CommandBar.KeyLetterKeepsCommand | src/components/CommandBar.tsx:31-34 | typing a command's key letter, in either case, keeps that command |
| CommandBar.FilterMonotone | src/components/CommandBar.tsx:31-34 | when u is a substring of v, every command kept for v is kept for u |
| CommandBar.FilterHead | src/components/CommandBar.tsx:31-34 | the first kept command is the first matching command of the list |
| CommandBar.OnKeyDown | src/components/CommandBar.tsx:14-52 | Enter fires the first kept command's action and closes, or does nothing when none is kept; Escape closes without firing |
| CommandBar.OnClick | src/components/CommandBar.tsx:57-63 | clicking the i-th shown command fires that command's action, which belongs to a matching command, and closes; clicking the first does what Enter does |
| CommandBar.EnterFiresFirstMatch | src/components/CommandBar.tsx:47-52 | Enter fires exactly the action of the first matching command in list order |
| CommandBar.EnterWithoutMatchDoesNothing | src/components/CommandBar.tsx:47-52 | Enter with no matching command fires nothing and keeps the palette open |
| CommandBar.LetterIFiresDaily | src/components/CommandBar.tsx:23-52 | input "i" fires "daily", not "ideas", because "Log Daily Activity" contains an 'i' and comes first |

## Left out

- Unicode NFKC normalisation (src/lib/security.ts:19) is a function parameter. Its only
  assumed property, that it keeps NUL-free text NUL-free, appears as a hypothesis.
- The WHATWG URL parser (src/lib/security.ts:38, 51) is a parameter returning an optional
  (protocol, href). `Security.SanitizeUrlOnlyAllowedSchemes` assumes the parser reports
  "https:" for any string starting "https://" that it accepts.
- `typeof input !== 'string'` guards: the model is typed, so only the empty-string case
  remains.
- Security.SanitizeText: lengths count Unicode scalar values, while JavaScript's `slice`
  counts UTF-16 code units. The two differ for characters outside the Basic
  Multilingual Plane.
- Security.MaskSensitive: `data.length` and both `slice` calls count UTF-16 code units,
  and the model counts Unicode scalar values. For data with characters outside the Basic
  Multilingual Plane the two differ: `maskSensitive("😀😀😀", 4)` has length 6 in
  JavaScript and shows two emoji at each end, where the model gives `"***"`.
- `toLowerCase` in `sanitizeEmail` and the command filter is modelled for ASCII letters
  only. Locale and Unicode case mapping are not modelled.
- `Date.now()` in the rate limiter is the explicit argument `now`.
- RateLimiting.SlidingWindow: the sliding-window bound, and so
  `RateLimiting.GlobalLimiterThirtyPerMinute`, assumes `Date.now()` never decreases. A wall
  clock that steps backwards can admit more than `maxRequests` calls in one window: with
  `NewRateLimiter(2, 1000)` and calls at 0, 0, 2000 and 10, three are admitted within 0..10
  (`RateLimiting.BackwardClockExceedsWindow`).
- `crypto.randomUUID` in `generateSecureId` (src/lib/security.ts:151-153) is foreign
  randomness.
- The global limiter instance (src/lib/security.ts:138) is ambient state. Its parameters
  are the constants `DefaultMaxRequests` and `DefaultWindowMs`.
- TimePicker: the value is assumed to be "" or a zero-padded "HH:MM". `parseInt` on
  malformed text (NaN) is not modelled.
- Timezone-dependent parsing of the date picker's `value`
  (src/components/CustomDatePicker.tsx:13, 20, 115-116, 216) is not modelled:
  - the initial `currentMonth`;
  - `selectedDate` and the selected/today/past cell styling;
  - `formatDisplayDate`.
  `DatePicker.ParseDateString` is a reference reader of the documented layout. It is not
  what `new Date(value)` does.
- `Today` takes today's date as a parameter, in place of the clock.
- DatePicker.Handle: Today and the navigation buttons use the corrected month
  arithmetic, not the constructor's two-digit-year rule (see Findings).
- DatePicker.MonthGrid: the grid is laid out for the view's own year. As written,
  `new Date(year, month, 1)` and `new Date(year, month + 1, 0)` read a view year of
  0..99 as 1900..1999 (see Findings and `DatePicker.StartingDayOfWeekAsWritten`).
- DatePicker.StartingDayOfWeek: the same corrected reading of view years 0..99.
- `getBoundingClientRect` values and viewport sizes are whole pixels, not doubles. The
  `ready` flag of the position is not modelled.
- All DOM concerns are not modelled:
  - scroll, resize and keydown listeners as registrations;
  - portals, `scrollIntoView` and `setTimeout` (src/components/CustomTimePicker.tsx:53-74);
  - the JSX rendering of every component.
  The Escape key is modelled only by its effect: it closes.
- The React effects' cleanup and the `isOpen` prop of the command bar are not modelled.
  The bar is modelled while open.
- src/components/ConfirmModal.tsx, src/lib/supabase.ts, src/components/SupabaseStatus.tsx,
  src/lib/gemini.ts, src/components/FocusReminder.tsx, src/config/index.ts,
  vite-env.d.ts, vite.config.ts and capacitor.config.ts are not part of this model. They
  are rendering, network clients, a foreign AI call, storage, environment plumbing and
  build configuration.

## Findings

| source | as written | input that shows it | evidently intended | confidence | as-written member | corrected member |
|---|---|---|---|---|---|---|
| src/lib/security.ts:160 | `data.slice(-visibleChars)` with `visibleChars` 0 is `slice(0)`, the whole string | `maskSensitive("secret", 0)` gives `"***secret"` | a mask that shows nothing: `"***"` | not executed; the default of 4 avoids it | Security.MaskZeroRevealsAll | Security.MaskSensitiveCorrected |
| src/lib/security.ts:159-160 | for `visibleChars < length <= 2*visibleChars` the prefix and suffix overlap | `maskSensitive("abcdef", 4)` gives `"abcd***cdef"`, every character shown | hide at least one character | not executed | Security.MaskOverlapRevealsAll | Security.MaskSensitiveCorrected |
| src/components/CustomDatePicker.tsx:127-133 | `new Date(year, month ± 1, 1)` reads a year argument of 0..99 as 1900..1999 | from January of year 100, previous gives December 99, and next then gives January 2000 | December 99 and back to January 100 | not executed | DatePicker.TwoDigitYearJump | DatePicker.NextUndoesPrevious |
| src/components/CustomDatePicker.tsx:95-98 | `new Date(year, month, 1).getDay()` reads a view year of 0..99 as 1900..1999 | the view December 99, which previous reaches from January of year 100, gets 3 leading blanks (1999-12-01) where 99-12-01 needs 2 | the grid of the month on display | not executed | DatePicker.GridOfDecember99 | DatePicker.DayUnderItsWeekday |

=== FILE: calendar.dfy ===
/** The proleptic Gregorian calendar as ECMAScript's `Date` computes it (section 21.4.1
    of ECMA-262): day numbers counted from 1970-01-01, `MakeDay` with month overflow
    into the year, `getDay` and the "day 0 of the next month" idiom for month length. */
module Calendar {

  /** ECMAScript's leap-year rule (DaysInYear): divisible by 4, and not by 100 unless by 400. */
  predicate IsLeapYear(year: int) {
    year % 4 == 0 && (year % 100 != 0 || year % 400 == 0)
  }

  /** DayFromYear: the day number of January 1 of `year`, 1970-01-01 being day 0. */
  function DayFromYear(year: int): int {
    365 * (year - 1970) + (year - 1969) / 4 - (year - 1901) / 100 + (year - 1601) / 400
  }

  /** Days in the months before `month0` of a common year. */
  const CumulativeDays: seq<nat> := [0, 31, 59, 90, 120, 151, 181, 212, 243, 273, 304, 334]

  /** Days of `year` before the first of `month0`. */
  function DaysBeforeMonth(year: int, month0: nat): (n: nat)
    requires month0 < 12
    ensures n <= 335
  {
    CumulativeDays[month0] + (if month0 >= 2 && IsLeapYear(year) then 1 else 0)
  }

  /** MakeDay(year, month, date): the day number of `new Date(year, month, date)`.
      The month may lie outside 0..11 and moves the year; the date may be 0 or past the
      month's end and moves the day. (The constructor's two-digit-year rule is not part
      of MakeDay; see DatePicker.JsMonthStart.) */
  function MakeDay(year: int, month: int, date: int): int {
    var y := year + month / 12;
    var m := month % 12;
    DayFromYear(y) + DaysBeforeMonth(y, m) + date - 1
  }

  /** A year is 366 days long exactly when it is a leap year. */
  lemma YearLength(year: int)
    ensures DayFromYear(year + 1) - DayFromYear(year) == if IsLeapYear(year) then 366 else 365
  {
    var fours := (year - 1968) / 4 - (year - 1969) / 4;
    var hundreds := (year - 1900) / 100 - (year - 1901) / 100;
    var four_hundreds := (year - 1600) / 400 - (year - 1601) / 400;
    assert DayFromYear(year + 1) - DayFromYear(year) == 365 + fours - hundreds + four_hundreds;
    FourYearStep(year);
    CenturyStep(year);
    QuadricentennialStep(year);
    DivisorsNest(year);
  }

  /** The count of years divisible by 4 steps up exactly at such a year. */
  lemma FourYearStep(year: int)
    ensures (year - 1968) / 4 - (year - 1969) / 4 == if year % 4 == 0 then 1 else 0
  {
    var q := year / 4;
    var r := year % 4;
    assert year == 4 * q + r && 0 <= r < 4;
    assert (year - 1968) / 4 == q - 492;
  }

  lemma CenturyStep(year: int)
    ensures (year - 1900) / 100 - (year - 1901) / 100 == if year % 100 == 0 then 1 else 0
  {
    var q := year / 100;
    var r := year % 100;
    assert year == 100 * q + r && 0 <= r < 100;
    assert (year - 1900) / 100 == q - 19;
  }

  lemma QuadricentennialStep(year: int)
    ensures (year - 1600) / 400 - (year - 1601) / 400 == if year % 400 == 0 then 1 else 0
  {
    var q := year / 400;
    var r := year % 400;
    assert year == 400 * q + r && 0 <= r < 400;
    assert (year - 1600) / 400 == q - 4;
  }

  /** Multiples of 400 are multiples of 100, which are multiples of 4. */
  lemma DivisorsNest(year: int)
    ensures year % 400 == 0 ==> year % 100 == 0
    ensures year % 100 == 0 ==> year % 4 == 0
  {
    if year % 400 == 0 {
      var k := year / 400;
      var q := year / 100;
      assert year == 400 * k;
      assert year == 100 * q + year % 100;
      assert 100 * (4 * k - q) == year % 100;
    }
    if year % 100 == 0 {
      var k := year / 100;
      var q := year / 4;
      assert year == 100 * k;
      assert year == 4 * q + year % 4;
      assert 4 * (25 * k - q) == year % 4;
    }
  }

  /** Within a year, the span from the first of a month to day 0 of the next is the
      difference of the cumulative counts. */
  lemma SpanWithinYear(year: int, month0: nat)
    requires month0 < 11
    ensures MakeDay(year, month0 + 1, 0) - MakeDay(year, month0, 1) + 1
            == DaysBeforeMonth(year, month0 + 1) - DaysBeforeMonth(year, month0)
  {
    assert (month0 + 1) / 12 == 0 && (month0 + 1) % 12 == month0 + 1;
    assert month0 / 12 == 0 && month0 % 12 == month0;
  }

  /** Month lengths of a common year, January first. */
  const MonthLengths: seq<nat> := [31, 28, 31, 30, 31, 30, 31, 31, 30, 31, 30, 31]

  /** The Gregorian month length: the common-year table, with February one day longer
      in a leap year. */
  function GregorianMonthLength(year: int, month0: nat): (n: nat)
    requires month0 < 12
    ensures 28 <= n <= 31
    ensures month0 == 1 ==> (n == 29 <==> IsLeapYear(year)) && (n == 28 <==> !IsLeapYear(year))
    ensures month0 in {3, 5, 8, 10} ==> n == 30
    ensures month0 in {0, 2, 4, 6, 7, 9, 11} ==> n == 31
  {
    MonthLengths[month0] + (if month0 == 1 && IsLeapYear(year) then 1 else 0)
  }

  /** Consecutive cumulative counts differ by the month's length. */
  lemma CumulativeStep(year: int, month0: nat)
    requires month0 < 11
    ensures DaysBeforeMonth(year, month0 + 1) - DaysBeforeMonth(year, month0)
            == GregorianMonthLength(year, month0)
  {
    if month0 == 1 {
      assert DaysBeforeMonth(year, 2) - DaysBeforeMonth(year, 1) == 28 + (if IsLeapYear(year) then 1 else 0);
    } else {
      assert CumulativeDays[month0 + 1] - CumulativeDays[month0] == MonthLengths[month0];
    }
  }

  /** Day 0 of January of the next year is December 31. */
  lemma SpanOfDecember(year: int)
    ensures MakeDay(year, 12, 0) - MakeDay(year, 11, 1) + 1 == 31
  {
    assert MakeDay(year, 12, 0) == DayFromYear(year + 1) - 1;
    assert MakeDay(year, 11, 1) == DayFromYear(year) + DaysBeforeMonth(year, 11);
    YearLength(year);
  }

  /** `new Date(year, month0 + 1, 0).getDate()`: the last day of month `month0`, read as
      its distance from the first of the month plus one. The result is the Gregorian
      month length. */
  function DaysInMonth(year: int, month0: nat): (n: nat)
    requires month0 < 12
    ensures 28 <= n <= 31
    ensures n == GregorianMonthLength(year, month0)
  {
    var lastDay := MakeDay(year, month0 + 1, 0);
    var firstDay := MakeDay(year, month0, 1);
    if month0 == 11 then
      SpanOfDecember(year);
      lastDay - firstDay + 1
    else
      SpanWithinYear(year, month0);
      CumulativeStep(year, month0);
      lastDay - firstDay + 1
  }

  /** `getDay()` of a day number: 0 for Sunday to 6 for Saturday (1970-01-01 was a Thursday). */
  function WeekDay(day: int): (w: nat)
    ensures w < 7
  {
    (day + 4) % 7
  }

  lemma DayOfEpoch()
    ensures MakeDay(1970, 0, 1) == 0
  {
    assert DayFromYear(1970) == 0;
  }

  lemma DayOf2000()
    ensures MakeDay(2000, 0, 1) == 10957
  {
    assert DayFromYear(2000) == 10957;
  }

  lemma WeekDaysOfAnchors()
    ensures WeekDay(0) == 4 && WeekDay(10957) == 6
  {
  }

  /** 1970-01-01 is day 0 of the count and a Thursday; 2000-01-01 is day 10957 and a
      Saturday. */
  lemma CalendarAnchors()
    ensures MakeDay(1970, 0, 1) == 0 && WeekDay(MakeDay(1970, 0, 1)) == 4
    ensures MakeDay(2000, 0, 1) == 10957 && WeekDay(MakeDay(2000, 0, 1)) == 6
  {
    DayOfEpoch();
    DayOf2000();
    WeekDaysOfAnchors();
  }

  /** Adding to a day number moves its weekday by the same amount, modulo 7. */
  lemma WeekDayShift(day: int, k: int)
    ensures WeekDay(day + k) == (WeekDay(day) + k) % 7
  {
    var q := (day + 4) / 7;
    assert day + 4 == 7 * q + WeekDay(day);
    assert day + k + 4 == 7 * q + (WeekDay(day) + k);
  }

  /** Day `d` of a month falls `d - 1` weekdays after the month's first day. */
  lemma WeekDayOfDate(year: int, month0: nat, d: int)
    requires month0 < 12
    ensures WeekDay(MakeDay(year, month0, d)) == (WeekDay(MakeDay(year, month0, 1)) + d - 1) % 7
  {
    assert MakeDay(year, month0, d) == MakeDay(year, month0, 1) + (d - 1);
    WeekDayShift(MakeDay(year, month0, 1), d - 1);
  }

  /** The day after the last of a month is the first of the next month, so the next
      month starts `DaysInMonth` weekdays later. */
  lemma NextMonthStart(year: int, month0: nat)
    requires month0 < 12
    ensures MakeDay(year, month0, DaysInMonth(year, month0)) + 1 == MakeDay(year, month0 + 1, 1)
    ensures WeekDay(MakeDay(year, month0 + 1, 1))
            == (WeekDay(MakeDay(year, month0, 1)) + DaysInMonth(year, month0)) % 7
  {
    var n := DaysInMonth(year, month0);
    assert MakeDay(year, month0, n) == MakeDay(year, month0, 1) + (n - 1);
    WeekDayShift(MakeDay(year, month0, 1), n);
  }
}

=== FILE: command_bar.dfy ===
/** The command palette (src/components/CommandBar.tsx): a fixed list of five commands,
    the case-insensitive filter over it, and what Enter, Escape and a click fire. */
module CommandBar {
  import opened Wrappers
  import opened Text

  /** A palette entry: its shortcut letter, its caption and the action it fires. */
  datatype Command = Command(key: string, caption: string, action: string)

  const Commands: seq<Command> := [
    Command("d", "Go Home", "dashboard"),
    Command("c", "Log Daily Activity", "daily"),
    Command("i", "Capture Quick Idea", "ideas"),
    Command("b", "Capture Discovery", "discoveries"),
    Command("n", "Network / Contacts", "contacts")
  ]

  /** The filter's test: the lower-cased input occurs in the lower-cased caption or key. */
  predicate Matches(c: Command, input: string) {
    Includes(ToLower(c.caption), ToLower(input)) || Includes(ToLower(c.key), ToLower(input))
  }

  /** `a` is `b` with some elements left out, the rest in their order. */
  predicate IsSubsequence<T(==)>(a: seq<T>, b: seq<T>) {
    if |a| == 0 then true
    else if |b| == 0 then false
    else if a[0] == b[0] then IsSubsequence(a[1..], b[1..])
    else IsSubsequence(a, b[1..])
  }

  /** `commands.filter(...)`: the matching commands, in list order. */
  function Filter(cmds: seq<Command>, input: string): (r: seq<Command>)
    ensures forall c :: c in r <==> c in cmds && Matches(c, input)
    ensures IsSubsequence(r, cmds)
    ensures |r| <= |cmds|
  {
    if |cmds| == 0 then []
    else
      var rest := Filter(cmds[1..], input);
      if Matches(cmds[0], input) then [cmds[0]] + rest else rest
  }

  /** When every command matches, none is dropped. */
  lemma {:induction false} FilterKeepsAllMatching(cmds: seq<Command>, input: string)
    requires forall i :: 0 <= i < |cmds| ==> Matches(cmds[i], input)
    ensures Filter(cmds, input) == cmds
  {
    if |cmds| > 0 {
      FilterKeepsAllMatching(cmds[1..], input);
      assert [cmds[0]] + cmds[1..] == cmds;
    }
  }

  /** When no command matches, all are dropped. */
  lemma {:induction false} FilterDropsAllFailing(cmds: seq<Command>, input: string)
    requires forall i :: 0 <= i < |cmds| ==> !Matches(cmds[i], input)
    ensures Filter(cmds, input) == []
  {
    if |cmds| > 0 {
      FilterDropsAllFailing(cmds[1..], input);
    }
  }

  /** The empty string occurs in every string. */
  lemma EmptyIncluded(s: string)
    ensures Includes(s, "")
  {
    assert OccursAt(s, "", 0);
  }

  /** An empty input keeps all five commands, in their declared order. */
  lemma EmptyInputKeepsAll()
    ensures Filter(Commands, "") == Commands
  {
    forall i | 0 <= i < |Commands|
      ensures Matches(Commands[i], "")
    {
      EmptyIncluded(ToLower(Commands[i].caption));
    }
    FilterKeepsAllMatching(Commands, "");
  }

  /** Typing a command's shortcut letter, in either case, keeps that command. */
  lemma KeyLetterKeepsCommand(i: nat, input: string)
    requires i < |Commands| && ToLower(input) == Commands[i].key
    ensures Commands[i] in Filter(Commands, input)
  {
    var c := Commands[i];
    assert ToLower(c.key) == c.key;
    assert OccursAt(ToLower(c.key), ToLower(input), 0);
  }

  /** A longer query never brings back a command a shorter factor of it dropped. */
  lemma FilterMonotone(u: string, v: string)
    requires Includes(v, u)
    ensures forall c :: c in Filter(Commands, v) ==> c in Filter(Commands, u)
  {
    IncludesToLower(v, u);
    forall c | c in Filter(Commands, v)
      ensures Matches(c, u)
    {
      if Includes(ToLower(c.caption), ToLower(v)) {
        IncludesTransitive(ToLower(c.caption), ToLower(v), ToLower(u));
      } else {
        IncludesTransitive(ToLower(c.key), ToLower(v), ToLower(u));
      }
    }
  }

  /** Index of the first command that matches `input`, if any. */
  predicate IsFirstMatch(cmds: seq<Command>, input: string, i: nat) {
    i < |cmds| && Matches(cmds[i], input) && forall j :: 0 <= j < i ==> !Matches(cmds[j], input)
  }

  /** The head of the filtered list is the first matching command. */
  lemma {:induction false} FilterHead(cmds: seq<Command>, input: string, i: nat)
    requires IsFirstMatch(cmds, input, i)
    ensures Filter(cmds, input) != [] && Filter(cmds, input)[0] == cmds[i]
  {
    if i > 0 {
      assert IsFirstMatch(cmds[1..], input, i - 1) by {
        forall j | 0 <= j < i - 1
          ensures !Matches(cmds[1..][j], input)
        {
          assert cmds[1..][j] == cmds[j + 1];
        }
      }
      FilterHead(cmds[1..], input, i - 1);
    }
  }

  // ------------------------------------------------------------ keys and clicks

  datatype Key = Enter | Escape | OtherKey

  /** What a key or click does: the action handed to `onAction`, if any, and whether
      the palette asks to close. */
  datatype Response = Response(fired: Option<string>, closes: bool)

  /** The input's Enter handler and the window's Escape handler. */
  function OnKeyDown(input: string, key: Key): (r: Response)
    ensures key == Enter && Filter(Commands, input) != [] ==>
              r == Response(Some(Filter(Commands, input)[0].action), true)
    ensures key == Enter && Filter(Commands, input) == [] ==> r == Response(None, false)
    ensures key == Escape ==> r == Response(None, true)
    ensures key == OtherKey ==> r == Response(None, false)
  {
    var filtered := Filter(Commands, input);
    match key
    case Enter => if |filtered| > 0 then Response(Some(filtered[0].action), true) else Response(None, false)
    case Escape => Response(None, true)
    case OtherKey => Response(None, false)
  }

  /** Clicking the `i`-th shown command fires that command's action and closes. */
  function OnClick(input: string, i: nat): (r: Response)
    requires i < |Filter(Commands, input)|
    ensures r.closes && r.fired == Some(Filter(Commands, input)[i].action)
    ensures exists c :: c in Commands && Matches(c, input) && r.fired == Some(c.action)
    // the first entry shown is the one Enter fires
    ensures i == 0 ==> r == OnKeyDown(input, Enter)
  {
    var c := Filter(Commands, input)[i];
    assert c in Filter(Commands, input);
    Response(Some(c.action), true)
  }

  /** Enter fires an action exactly when some command matches, and then it fires the
      first matching command's action in list order. */
  lemma EnterFiresFirstMatch(input: string, i: nat)
    requires IsFirstMatch(Commands, input, i)
    ensures OnKeyDown(input, Enter) == Response(Some(Commands[i].action), true)
  {
    FilterHead(Commands, input, i);
  }

  lemma EnterWithoutMatchDoesNothing(input: string)
    requires forall i :: 0 <= i < |Commands| ==> !Matches(Commands[i], input)
    ensures OnKeyDown(input, Enter) == Response(None, false)
  {
    FilterDropsAllFailing(Commands, input);
  }

  /** Typing "i" and pressing Enter fires "daily", not "ideas": "Log Daily Activity"
      contains an 'i' and comes earlier in the list. */
  lemma LetterIFiresDaily()
    ensures OnKeyDown("i", Enter).fired == Some("daily")
  {
    assert ToLower("i") == "i";
    assert ToLower("Go Home") == "go home";
    assert ToLower("d") == "d";
    assert ToLower("Log Daily Activity") == "log daily activity";
    assert OccursAt("log daily activity", "i", 6);
    assert !Includes("go home", "i") by {
      forall k | 0 <= k <= |"go home"| - 1
        ensures !OccursAt("go home", "i", k)
      {
        assert "go home"[k..k + 1] == ["go home"[k]];
      }
    }
    assert !Includes("d", "i") by {
      assert "d"[0..1] == "d";
    }
    assert IsFirstMatch(Commands, "i", 1);
    EnterFiresFirstMatch("i", 1);
  }
}

=== FILE: date_picker.dfy ===
/** The date picker (src/components/CustomDatePicker.tsx): the month grid, the
    "YYYY-MM-DD" value a day click or Today emits, month navigation, and the clamp that
    keeps the popup inside the viewport. Rendering and listeners are not modelled. */
module DatePicker {
  import opened Wrappers
  import opened Text
  import opened Numbers
  import opened Calendar

  /** `currentMonth`: the month on display, held as its first day. */
  datatype MonthView = MonthView(year: int, month0: nat)

  predicate ValidView(v: MonthView) {
    v.month0 < 12
  }

  /** A calendar date with a 0-based month, as `getFullYear`/`getMonth`/`getDate` read it. */
  datatype CalendarDate = CalendarDate(year: int, month0: nat, day: nat)

  predicate ValidDate(d: CalendarDate) {
    d.month0 < 12 && 1 <= d.day <= DaysInMonth(d.year, d.month0)
  }

  // ------------------------------------------------------------ the month grid

  /** `firstDay.getDay()`: the number of blank cells before day 1. */
  function StartingDayOfWeek(v: MonthView): (w: nat)
    requires ValidView(v)
    ensures w < 7
  {
    WeekDay(MakeDay(v.year, v.month0, 1))
  }

  /** `firstDay.getDay()` as written: `new Date(year, month, 1)` reads a view year from
      0 to 99 as 1900 to 1999, so such a grid is laid out for the wrong century. */
  function StartingDayOfWeekAsWritten(v: MonthView): (w: nat)
    requires ValidView(v)
    ensures w < 7
    ensures !(0 <= v.year <= 99) ==> w == StartingDayOfWeek(v)
  {
    WeekDay(MakeDay(ConstructorYear(v.year), v.month0, 1))
  }

  lemma FirstOfDecember1999()
    ensures MakeDay(1999, 11, 1) == 10926
  {
    assert DayFromYear(1999) == 10592;
  }

  lemma FirstOfDecember99()
    ensures MakeDay(99, 11, 1) == -683034
  {
    assert DayFromYear(99) == -683368;
  }

  lemma WeekDaysOfDecemberFirsts()
    ensures WeekDay(10926) == 3 && WeekDay(-683034) == 2
  {
  }

  /** December of year 99, the month the previous-month button reaches from January of
      year 100: as written its grid has three leading blanks (1999-12-01 was a Wednesday),
      while 99-12-01 was a Tuesday. */
  lemma GridOfDecember99()
    ensures StartingDayOfWeekAsWritten(MonthView(99, 11)) == 3
    ensures StartingDayOfWeek(MonthView(99, 11)) == 2
  {
    FirstOfDecember1999();
    FirstOfDecember99();
    WeekDaysOfDecemberFirsts();
  }

  /** A cell of the grid: `null` before the first day, then a day of the month. */
  datatype Cell = Blank | Day(day: nat)

  /** `getDaysInMonth`: the leading blanks, then the days 1 to the month's length in order. */
  method MonthGrid(v: MonthView) returns (days: seq<Cell>)
    requires ValidView(v)
    ensures |days| == StartingDayOfWeek(v) + DaysInMonth(v.year, v.month0) <= 37
    ensures forall i :: 0 <= i < StartingDayOfWeek(v) ==> days[i] == Blank
    ensures forall i :: StartingDayOfWeek(v) <= i < |days| ==> days[i] == Day(i - StartingDayOfWeek(v) + 1)
  {
    var start := StartingDayOfWeek(v);
    var n := DaysInMonth(v.year, v.month0);
    days := [];
    var i := 0;
    while i < start
      invariant 0 <= i <= start
      invariant |days| == i
      invariant forall k :: 0 <= k < i ==> days[k] == Blank
    {
      days := days + [Blank];
      i := i + 1;
    }
    i := 1;
    while i <= n
      invariant 1 <= i <= n + 1
      invariant |days| == start + i - 1
      invariant forall k :: 0 <= k < start ==> days[k] == Blank
      invariant forall k :: start <= k < |days| ==> days[k] == Day(k - start + 1)
    {
      days := days + [Day(i)];
      i := i + 1;
    }
  }

  /** The grid has seven columns headed Sunday to Saturday; day `d` sits at index
      `start + d - 1`, so its column is its weekday. */
  lemma DayUnderItsWeekday(v: MonthView, d: nat)
    requires ValidView(v) && 1 <= d <= DaysInMonth(v.year, v.month0)
    ensures (StartingDayOfWeek(v) + d - 1) % 7 == WeekDay(MakeDay(v.year, v.month0, d))
  {
    WeekDayOfDate(v.year, v.month0, d);
  }

  /** The next month's grid starts in the column after this month's last day. */
  lemma GridContinues(v: MonthView)
    requires ValidView(v)
    ensures StartingDayOfWeek(NextMonth(v)) == (StartingDayOfWeek(v) + DaysInMonth(v.year, v.month0)) % 7
  {
    var next := NextMonth(v);
    NextMonthStart(v.year, v.month0);
    MonthStartSameDay(v.year, v.month0 + 1);
    assert next == MonthStart(v.year, v.month0 + 1);
    var first := MakeDay(next.year, next.month0, 1);
    assert first == MakeDay(v.year, v.month0 + 1, 1);
    assert StartingDayOfWeek(next) == WeekDay(first);
  }

  // ------------------------------------------------------------ the emitted value

  /** `${year}` for an integer year: its decimal digits, after '-' when negative. */
  function YearText(year: int): (t: string)
    ensures 1000 <= year <= 9999 ==> |t| == 4 && AllDigits(t) && DigitsValue(t) == year
  {
    if year < 0 then "-" + Decimal(-year)
    else
      if 1000 <= year <= 9999 then
        FourDigitWidth(year);
        Decimal(year)
      else
        Decimal(year)
  }

  /** The three fields of a joined date string sit at fixed positions. */
  lemma DateFields(y: string, mm: string, dd: string)
    requires |y| == 4 && |mm| == 2 && |dd| == 2
    ensures var s := y + "-" + mm + "-" + dd;
            |s| == 10 && s[4] == '-' && s[7] == '-' && s[..4] == y && s[5..7] == mm && s[8..] == dd
  {
  }

  /** The string `handleDateClick` and Today emit: year, '-', two-digit month
      (`month0 + 1`), '-', two-digit day. */
  function DateString(year: int, month0: nat, day: nat): (s: string)
    ensures 1000 <= year <= 9999 && month0 < 12 && day < 100 ==>
              && |s| == 10 && s[4] == '-' && s[7] == '-'
              && AllDigits(s[..4]) && AllDigits(s[5..7]) && AllDigits(s[8..])
              && DigitsValue(s[..4]) == year
              && 1 <= DigitsValue(s[5..7]) == month0 + 1 <= 12
              && DigitsValue(s[8..]) == day
  {
    var y := YearText(year);
    var mm := Pad2(month0 + 1);
    var dd := Pad2(day);
    var s := y + "-" + mm + "-" + dd;
    if 1000 <= year <= 9999 && month0 < 12 && day < 100 then
      DateFields(y, mm, dd);
      s
    else
      s
  }

  /** Reads a "YYYY-MM-DD" value of the layout the picker's `value` documents: four
      digits, '-', a month 01 to 12, '-', two digits. */
  function ParseDateString(s: string): (r: Option<CalendarDate>)
    ensures r.Some? ==> |s| == 10 && s[4] == '-' && s[7] == '-'
    ensures r.Some? ==> r.value.year < 10000 && r.value.month0 < 12 && r.value.day < 100
  {
    if |s| == 10 && s[4] == '-' && s[7] == '-'
       && AllDigits(s[..4]) && AllDigits(s[5..7]) && AllDigits(s[8..])
       && 1 <= DigitsValue(s[5..7]) <= 12
    then
      TwoDigitsValue(s[5..7]);
      TwoDigitsValue(s[8..]);
      FourDigitsValue(s[..4]);
      Some(CalendarDate(DigitsValue(s[..4]), DigitsValue(s[5..7]) - 1, DigitsValue(s[8..])))
    else None
  }

  /** Reading back an emitted date recovers the year, month and day. */
  lemma DateStringRoundTrip(d: CalendarDate)
    requires 1000 <= d.year <= 9999 && ValidDate(d)
    ensures ParseDateString(DateString(d.year, d.month0, d.day)) == Some(d)
  {
    var s := DateString(d.year, d.month0, d.day);
    assert d.day < 100;
    assert DigitsValue(s[..4]) == d.year && DigitsValue(s[5..7]) == d.month0 + 1;
    assert DigitsValue(s[8..]) == d.day;
  }

  // ------------------------------------------------------------ navigation

  /** `new Date(year, month, 1)` read back as a month view, for the month normalised
      into the year (MakeDay's rule) and without the two-digit-year rule. */
  function MonthStart(year: int, month: int): (r: MonthView)
    ensures ValidView(r)
    ensures 0 <= month < 12 ==> r == MonthView(year, month)
  {
    MonthView(year + month / 12, month % 12)
  }

  /** The view `MonthStart` gives starts on the same day as the date asked for. */
  lemma MonthStartSameDay(year: int, month: int)
    ensures MakeDay(MonthStart(year, month).year, MonthStart(year, month).month0, 1) == MakeDay(year, month, 1)
  {
    var r := MonthStart(year, month);
    assert r.month0 / 12 == 0 && r.month0 % 12 == r.month0;
  }

  /** `goToPreviousMonth`, with years kept as they are. */
  function PreviousMonth(v: MonthView): (r: MonthView)
    requires ValidView(v)
    ensures ValidView(r)
    ensures v.month0 == 0 ==> r == MonthView(v.year - 1, 11)
    ensures 0 < v.month0 ==> r == MonthView(v.year, v.month0 - 1)
  {
    MonthStart(v.year, v.month0 - 1)
  }

  /** `goToNextMonth`, with years kept as they are. */
  function NextMonth(v: MonthView): (r: MonthView)
    requires ValidView(v)
    ensures ValidView(r)
    ensures v.month0 == 11 ==> r == MonthView(v.year + 1, 0)
    ensures v.month0 < 11 ==> r == MonthView(v.year, v.month0 + 1)
  {
    MonthStart(v.year, v.month0 + 1)
  }

  lemma NextUndoesPrevious(v: MonthView)
    requires ValidView(v)
    ensures NextMonth(PreviousMonth(v)) == v
  {
  }

  lemma PreviousUndoesNext(v: MonthView)
    requires ValidView(v)
    ensures PreviousMonth(NextMonth(v)) == v
  {
  }

  /** `new Date(year, month, 1)` as the constructor computes it: a year argument from 0
      to 99 is read as 1900 to 1999 before the month is normalised. */
  function JsMonthStart(year: int, month: int): (r: MonthView)
    ensures ValidView(r)
    ensures !(0 <= year <= 99) ==> r == MonthStart(year, month)
  {
    MonthStart(ConstructorYear(year), month)
  }

  /** The year `new Date(year, month, date)` works with: 0 to 99 read as 1900 to 1999.
      The result is never itself a two-digit year, so reading it again changes nothing. */
  function ConstructorYear(year: int): (r: int)
    ensures 0 <= year <= 99 ==> r == 1900 + year
    ensures !(0 <= year <= 99) ==> r == year
    ensures !(0 <= r <= 99)
  {
    if 0 <= year <= 99 then 1900 + year else year
  }

  /** The navigation buttons as written, through the constructor. */
  function PreviousMonthAsWritten(v: MonthView): (r: MonthView)
    requires ValidView(v)
    ensures !(0 <= v.year <= 99) ==> r == PreviousMonth(v)
  {
    JsMonthStart(v.year, v.month0 - 1)
  }

  function NextMonthAsWritten(v: MonthView): (r: MonthView)
    requires ValidView(v)
    ensures !(0 <= v.year <= 99) ==> r == NextMonth(v)
  {
    JsMonthStart(v.year, v.month0 + 1)
  }

  /** From January of year 100, back then forward lands in January 2000: the
      previous month is December 99, and the constructor reads 99 as 1999. */
  lemma TwoDigitYearJump()
    ensures PreviousMonthAsWritten(MonthView(100, 0)) == MonthView(99, 11)
    ensures NextMonthAsWritten(PreviousMonthAsWritten(MonthView(100, 0))) == MonthView(2000, 0)
  {
    assert MonthStart(100, -1) == MonthView(99, 11);
    assert MonthStart(1999, 12) == MonthView(2000, 0);
  }

  // ------------------------------------------------------------ the popup position

  /** The trigger button's bounding box, in whole pixels. */
  datatype Rect = Rect(top: int, bottom: int, left: int)

  datatype Position = Position(top: int, left: int)

  const CalendarHeight: int := 420
  const CalendarWidth: int := 320
  const Gap: int := 8
  const RightMargin: int := 16
  const MinOffset: int := 10

  /** The popup would run past the bottom of the viewport if placed below the button. */
  predicate OpensAbove(rect: Rect, viewportHeight: int) {
    rect.bottom + Gap + CalendarHeight > viewportHeight
  }

  /** `updatePosition`: below the button unless that overflows the viewport, then above
      it; aligned with the button unless that overflows on the right; never left of 10. */
  function UpdatePosition(rect: Rect, viewportWidth: int, viewportHeight: int): (p: Position)
    ensures p.left >= MinOffset
    ensures !OpensAbove(rect, viewportHeight) ==> p.top == rect.bottom + Gap
    ensures OpensAbove(rect, viewportHeight) ==> p.top >= MinOffset
    // placed above, the popup either ends `Gap` pixels above the button or is held at the top
    ensures OpensAbove(rect, viewportHeight) ==>
              p.top == MinOffset || p.top + CalendarHeight + Gap == rect.top
    // aligned with the button when it fits on the right, else `RightMargin` inside the edge,
    // and in both cases pushed right to `MinOffset` when that is further right
    ensures rect.left + CalendarWidth <= viewportWidth ==> p.left == Max(MinOffset, rect.left)
    ensures rect.left + CalendarWidth > viewportWidth ==>
              p.left == Max(MinOffset, viewportWidth - CalendarWidth - RightMargin)
  {
    var top := rect.bottom + Gap;
    var left := rect.left;
    var top := if top + CalendarHeight > viewportHeight then Max(MinOffset, rect.top - CalendarHeight - Gap) else top;
    var left := if left + CalendarWidth > viewportWidth then viewportWidth - CalendarWidth - RightMargin else left;
    Position(top, Max(MinOffset, left))
  }

  /** In a viewport at least 330 pixels wide the popup lies wholly inside it horizontally. */
  lemma PopupFitsHorizontally(rect: Rect, viewportWidth: int, viewportHeight: int)
    requires viewportWidth >= MinOffset + CalendarWidth
    ensures var p := UpdatePosition(rect, viewportWidth, viewportHeight);
            MinOffset <= p.left && p.left + CalendarWidth <= viewportWidth
  {
  }

  /** A button with room on its right keeps the popup aligned with its left edge. */
  lemma PopupAlignsWithButton(rect: Rect, viewportWidth: int, viewportHeight: int)
    requires MinOffset <= rect.left && rect.left + CalendarWidth <= viewportWidth
    ensures UpdatePosition(rect, viewportWidth, viewportHeight).left == rect.left
  {
  }

  /** With the button's top on screen and a viewport at least 430 pixels tall, the popup
      does not run past the bottom. */
  lemma PopupFitsVertically(rect: Rect, viewportWidth: int, viewportHeight: int)
    requires viewportHeight >= MinOffset + CalendarHeight && rect.top <= viewportHeight
    ensures UpdatePosition(rect, viewportWidth, viewportHeight).top + CalendarHeight <= viewportHeight
  {
  }

  /** A button too close to the right edge puts the popup `RightMargin` pixels inside
      that edge, when the viewport is wide enough for it. */
  lemma PopupOverflowsRight(rect: Rect, viewportWidth: int, viewportHeight: int)
    requires rect.left + CalendarWidth > viewportWidth
    requires viewportWidth >= MinOffset + CalendarWidth + RightMargin
    ensures UpdatePosition(rect, viewportWidth, viewportHeight).left + CalendarWidth + RightMargin
            == viewportWidth
  {
  }

  /** A popup that must open above a button near the top of the viewport is held 10
      pixels from the top, where it may cover the button. */
  lemma PopupClampedAtTop(rect: Rect, viewportWidth: int, viewportHeight: int)
    requires OpensAbove(rect, viewportHeight)
    requires rect.top < MinOffset + CalendarHeight + Gap
    ensures UpdatePosition(rect, viewportWidth, viewportHeight).top == MinOffset
  {
  }

  /** Placed above a button with room above it, the popup ends `Gap` pixels above the
      button's top, so it does not cover the button. */
  lemma PopupAboveClearsButton(rect: Rect, viewportWidth: int, viewportHeight: int)
    requires OpensAbove(rect, viewportHeight)
    requires rect.top >= MinOffset + CalendarHeight + Gap
    ensures UpdatePosition(rect, viewportWidth, viewportHeight).top + CalendarHeight + Gap == rect.top
  {
  }

  // ------------------------------------------------------------ events

  datatype PickerState = PickerState(view: MonthView, open: bool)

  /** What the user can do with the picker; `Today` carries the clock's current date. */
  datatype Event =
    | Toggle                         // the trigger button
    | Dismiss                        // the backdrop
    | Escape                         // the Escape key while open
    | Previous
    | Next
    | PickDay(day: nat)              // a day cell
    | Today(today: CalendarDate)
    | Clear

  /** The state after an event, and the value handed to `onChange`, if any. */
  datatype Outcome = Outcome(state: PickerState, emitted: Option<string>)

  function Handle(st: PickerState, ev: Event): (o: Outcome)
    requires ValidView(st.view)
    ensures ValidView(o.state.view)
    ensures ev.PickDay? ==>
              o == Outcome(st.(open := false), Some(DateString(st.view.year, st.view.month0, ev.day)))
    ensures ev.Today? ==>
              && o.emitted == Some(DateString(ev.today.year, ev.today.month0, ev.today.day))
              && o.state == PickerState(MonthStart(ev.today.year, ev.today.month0), false)
    ensures ev == Clear ==> o == Outcome(st.(open := false), Some(""))
    ensures ev == Previous ==> o == Outcome(st.(view := PreviousMonth(st.view)), None)
    ensures ev == Next ==> o == Outcome(st.(view := NextMonth(st.view)), None)
    ensures ev == Toggle ==> o == Outcome(st.(open := !st.open), None)
    ensures ev in {Dismiss, Escape} ==> o == Outcome(st.(open := false), None)
  {
    var v := st.view;
    match ev
    case Toggle => Outcome(st.(open := !st.open), None)
    case Dismiss => Outcome(st.(open := false), None)
    case Escape => Outcome(st.(open := false), None)
    case Previous => Outcome(st.(view := PreviousMonth(v)), None)
    case Next => Outcome(st.(view := NextMonth(v)), None)
    case PickDay(day) => Outcome(st.(open := false), Some(DateString(v.year, v.month0, day)))
    case Today(t) =>
      Outcome(PickerState(MonthStart(t.year, t.month0), false), Some(DateString(t.year, t.month0, t.day)))
    case Clear => Outcome(st.(open := false), Some(""))
  }

  /** Today emits exactly what clicking today's cell emits once the view shows today's month. */
  lemma TodayMatchesClick(st: PickerState, t: CalendarDate)
    requires ValidView(st.view) && ValidDate(t)
    ensures var after := Handle(st, Today(t));
            after.state.view == MonthView(t.year, t.month0)
            && after.emitted == Handle(after.state, PickDay(t.day)).emitted
  {
  }
}

=== FILE: numbers.dfy ===
/** `Math.max` and `Math.min` on integers. */
module Numbers {

  function Max(a: int, b: int): (m: int)
    ensures a <= m && b <= m
    ensures m == a || m == b
  {
    if a < b then b else a
  }

  function Min(a: int, b: int): (m: int)
    ensures m <= a && m <= b
    ensures m == a || m == b
  {
    if a < b then a else b
  }
}

=== FILE: rate_limiter.dfy ===
/** The sliding-window rate limiter of src/lib/security.ts. The mutable instance becomes
    an immutable record threaded through every call, and the clock reading `Date.now()`
    becomes the explicit argument `now` (milliseconds). */
module RateLimiting {
  import opened Numbers

  /** The parameters of the application-wide instance: 30 requests per minute. */
  const DefaultMaxRequests: int := 30
  const DefaultWindowMs: int := 60000

  /** One limiter: the log of admitted request times, oldest first, and its two limits. */
  datatype RateLimiter = RateLimiter(timestamps: seq<int>, maxRequests: int, windowMs: int)

  /** `new RateLimiter(maxRequests, windowMs)`: nothing logged yet, so the whole budget
      is available at any time and the first call is admitted unless the budget is zero. */
  function NewRateLimiter(maxRequests: int, windowMs: int): (rl: RateLimiter)
    ensures rl.timestamps == [] && rl.maxRequests == maxRequests && rl.windowMs == windowMs
    ensures forall now :: GetRemainingRequests(rl, now).count == Max(0, maxRequests)
    ensures forall now :: CanMakeRequest(rl, now).allowed <==> maxRequests > 0
  {
    RateLimiter([], maxRequests, windowMs)
  }

  /** `timestamps.filter(t => now - t < windowMs)`: the logged times still inside the window. */
  function Recent(log: seq<int>, now: int, windowMs: int): (r: seq<int>)
    ensures |r| <= |log|
    ensures forall t :: t in r <==> t in log && now - t < windowMs
    ensures forall t :: multiset(r)[t] == if now - t < windowMs then multiset(log)[t] else 0
  {
    if |log| == 0 then []
    else
      var last := log[|log| - 1];
      assert log == log[..|log| - 1] + [last];
      Recent(log[..|log| - 1], now, windowMs) + (if now - last < windowMs then [last] else [])
  }

  /** Eviction works piece by piece: survivors keep their order and their repetitions. */
  lemma {:induction false} RecentConcat(a: seq<int>, b: seq<int>, now: int, windowMs: int)
    ensures Recent(a + b, now, windowMs) == Recent(a, now, windowMs) + Recent(b, now, windowMs)
  {
    if |b| > 0 {
      var init := b[..|b| - 1];
      assert (a + b)[..|a + b| - 1] == a + init;
      RecentConcat(a, init, now, windowMs);
    } else {
      assert a + b == a;
    }
  }

  /** The outcome of `canMakeRequest`: the answer and the limiter after the call. */
  datatype Admission = Admission(allowed: bool, limiter: RateLimiter)

  /** `canMakeRequest()` at time `now`: evict expired times, refuse when the window is
      full, otherwise log `now` and admit. */
  function CanMakeRequest(rl: RateLimiter, now: int): (a: Admission)
    ensures a.limiter.maxRequests == rl.maxRequests && a.limiter.windowMs == rl.windowMs
    ensures a.allowed <==> |Recent(rl.timestamps, now, rl.windowMs)| < rl.maxRequests
    ensures a.allowed ==> a.limiter.timestamps == Recent(rl.timestamps, now, rl.windowMs) + [now]
    ensures !a.allowed ==> a.limiter.timestamps == Recent(rl.timestamps, now, rl.windowMs)
    ensures |rl.timestamps| <= rl.maxRequests ==> |a.limiter.timestamps| <= rl.maxRequests
  {
    var kept := Recent(rl.timestamps, now, rl.windowMs);
    if |kept| >= rl.maxRequests then Admission(false, rl.(timestamps := kept))
    else Admission(true, rl.(timestamps := kept + [now]))
  }

  /** The outcome of `getRemainingRequests`: the count and the limiter after the call. */
  datatype Remaining = Remaining(count: int, limiter: RateLimiter)

  /** `getRemainingRequests()` at time `now`: evicts expired times, never logs one. */
  function GetRemainingRequests(rl: RateLimiter, now: int): (res: Remaining)
    ensures res.count >= 0
    ensures rl.maxRequests >= 0 ==> res.count <= rl.maxRequests
    ensures res.count == Max(0, rl.maxRequests - |res.limiter.timestamps|)
    ensures res.limiter == rl.(timestamps := Recent(rl.timestamps, now, rl.windowMs))
    ensures |res.limiter.timestamps| <= |rl.timestamps|
  {
    var kept := Recent(rl.timestamps, now, rl.windowMs);
    Remaining(Max(0, rl.maxRequests - |kept|), rl.(timestamps := kept))
  }

  // ------------------------------------------------------------ eviction

  /** Evicting twice at the same time evicts nothing more. */
  lemma {:induction false} RecentIdempotent(log: seq<int>, now: int, windowMs: int)
    ensures Recent(Recent(log, now, windowMs), now, windowMs) == Recent(log, now, windowMs)
  {
    RecentLater(log, now, now, windowMs);
  }

  /** Evicting at `earlier` and then at `now >= earlier` is the same as evicting at `now`. */
  lemma {:induction false} RecentLater(log: seq<int>, earlier: int, now: int, windowMs: int)
    requires earlier <= now
    ensures Recent(Recent(log, earlier, windowMs), now, windowMs) == Recent(log, now, windowMs)
  {
    if |log| > 0 {
      var init, last := log[..|log| - 1], log[|log| - 1];
      RecentLater(init, earlier, now, windowMs);
      var inner := Recent(init, earlier, windowMs);
      if earlier - last < windowMs {
        assert Recent(log, earlier, windowMs) == inner + [last];
        assert (inner + [last])[..|inner|] == inner;
      } else {
        assert Recent(log, earlier, windowMs) == inner;
        assert Recent(log, now, windowMs) == Recent(init, now, windowMs);
      }
    }
  }

  /** Logging `now` and evicting at `now` keeps it, given a positive window. */
  lemma RecentAppendNow(log: seq<int>, now: int, windowMs: int)
    requires windowMs > 0
    ensures Recent(log + [now], now, windowMs) == Recent(log, now, windowMs) + [now]
  {
    assert (log + [now])[..|log|] == log;
  }

  // ------------------------------------------------------------ one call

  /** Asking twice at the same time gives the same answer and leaves the limiter as the
      first call left it. */
  lemma RemainingStable(rl: RateLimiter, now: int)
    ensures var first := GetRemainingRequests(rl, now);
            GetRemainingRequests(first.limiter, now) == first
  {
    RecentIdempotent(rl.timestamps, now, rl.windowMs);
  }

  /** An admitted call uses up exactly one of the remaining requests. */
  lemma AdmissionUsesOneSlot(rl: RateLimiter, now: int)
    requires rl.windowMs > 0
    requires CanMakeRequest(rl, now).allowed
    ensures GetRemainingRequests(CanMakeRequest(rl, now).limiter, now).count
            == GetRemainingRequests(rl, now).count - 1
  {
    var kept := Recent(rl.timestamps, now, rl.windowMs);
    RecentAppendNow(kept, now, rl.windowMs);
    RecentIdempotent(rl.timestamps, now, rl.windowMs);
  }

  /** A refused call leaves nothing to take: no request remains. */
  lemma RefusalMeansNoneRemaining(rl: RateLimiter, now: int)
    requires !CanMakeRequest(rl, now).allowed
    ensures GetRemainingRequests(rl, now).count == 0
  {
  }

  /** A limiter of two requests per second admits two calls, refuses a third inside the
      same second, and admits again once the window has passed. */
  lemma TwoPerSecondExample()
    ensures var a1 := CanMakeRequest(NewRateLimiter(2, 1000), 0);
            var a2 := CanMakeRequest(a1.limiter, 100);
            var a3 := CanMakeRequest(a2.limiter, 200);
            var a4 := CanMakeRequest(a3.limiter, 1200);
            a1.allowed && a2.allowed && !a3.allowed && a4.allowed
  {
    var a1 := CanMakeRequest(NewRateLimiter(2, 1000), 0);
    assert a1.limiter.timestamps == [0];
    var a2 := CanMakeRequest(a1.limiter, 100);
    assert Recent([0], 100, 1000) == [0];
    assert a2.limiter.timestamps == [0, 100];
    var a3 := CanMakeRequest(a2.limiter, 200);
    assert [0, 100][..1] == [0];
    assert Recent([0, 100], 200, 1000) == [0, 100];
    assert a3.limiter.timestamps == [0, 100];
    assert Recent([0, 100], 1200, 1000) == [];
  }

  // ------------------------------------------------------------ many calls

  /** The limiter and the admitted times after calling `canMakeRequest` at each of `times`. */
  datatype Trace = Trace(limiter: RateLimiter, admitted: seq<int>)

  function Replay(rl: RateLimiter, times: seq<int>): (tr: Trace)
    ensures tr.limiter.maxRequests == rl.maxRequests && tr.limiter.windowMs == rl.windowMs
  {
    if |times| == 0 then Trace(rl, [])
    else
      var prev := Replay(rl, times[..|times| - 1]);
      var now := times[|times| - 1];
      var a := CanMakeRequest(prev.limiter, now);
      Trace(a.limiter, if a.allowed then prev.admitted + [now] else prev.admitted)
  }

  /** A log started empty never holds more than `maxRequests` times. */
  lemma {:induction false} ReplayWithinBound(maxRequests: int, windowMs: int, times: seq<int>)
    requires maxRequests >= 0
    ensures |Replay(NewRateLimiter(maxRequests, windowMs), times).limiter.timestamps| <= maxRequests
  {
    if |times| > 0 {
      ReplayWithinBound(maxRequests, windowMs, times[..|times| - 1]);
    }
  }

  predicate NonDecreasing(times: seq<int>) {
    forall i, j :: 0 <= i < j < |times| ==> times[i] <= times[j]
  }

  /** How many of `ts` fall in the closed interval [lo, hi]. */
  function CountBetween(ts: seq<int>, lo: int, hi: int): nat {
    if |ts| == 0 then 0
    else CountBetween(ts[..|ts| - 1], lo, hi) + (if lo <= ts[|ts| - 1] <= hi then 1 else 0)
  }

  /** What holds after a replay whose latest call was at `last`: the log is exactly the
      admitted times still inside the window, no admission lies in the future, and no
      interval shorter than the window holds more than `maxRequests` admissions. */
  ghost predicate ReplayInvariant(tr: Trace, last: int, maxRequests: int, windowMs: int) {
    && tr.limiter.maxRequests == maxRequests && tr.limiter.windowMs == windowMs
    && tr.limiter.timestamps == Recent(tr.admitted, last, windowMs)
    && (forall t :: t in tr.admitted ==> t <= last)
    && (forall lo, hi :: hi - lo < windowMs ==> CountBetween(tr.admitted, lo, hi) <= maxRequests)
  }

  /** Admissions in an interval ending by `now` and shorter than the window are all still
      in the window at `now`. */
  lemma {:induction false} CountWithinRecent(admitted: seq<int>, lo: int, hi: int, now: int, windowMs: int)
    requires now - lo < windowMs
    requires forall t :: t in admitted ==> t <= now
    ensures CountBetween(admitted, lo, hi) <= |Recent(admitted, now, windowMs)|
  {
    if |admitted| > 0 {
      var init := admitted[..|admitted| - 1];
      assert forall t :: t in init ==> t in admitted;
      CountWithinRecent(init, lo, hi, now, windowMs);
    }
  }

  lemma CountAppend(ts: seq<int>, x: int, lo: int, hi: int)
    ensures CountBetween(ts + [x], lo, hi) == CountBetween(ts, lo, hi) + (if lo <= x <= hi then 1 else 0)
  {
    assert (ts + [x])[..|ts|] == ts;
  }

  /** One more call at a time no earlier than the last keeps the invariant. */
  lemma StepKeepsInvariant(tr: Trace, last: int, now: int, maxRequests: int, windowMs: int)
    requires windowMs > 0 && last <= now
    requires ReplayInvariant(tr, last, maxRequests, windowMs)
    ensures var a := CanMakeRequest(tr.limiter, now);
            ReplayInvariant(Trace(a.limiter, if a.allowed then tr.admitted + [now] else tr.admitted),
                            now, maxRequests, windowMs)
  {
    var a := CanMakeRequest(tr.limiter, now);
    RecentLater(tr.admitted, last, now, windowMs);
    var kept := Recent(tr.admitted, now, windowMs);
    assert Recent(tr.limiter.timestamps, now, windowMs) == kept;
    if a.allowed {
      var admitted' := tr.admitted + [now];
      RecentAppendNow(tr.admitted, now, windowMs);
      forall lo, hi | hi - lo < windowMs
        ensures CountBetween(admitted', lo, hi) <= maxRequests
      {
        CountAppend(tr.admitted, now, lo, hi);
        if lo <= now <= hi {
          CountWithinRecent(tr.admitted, lo, hi, now, windowMs);
        }
      }
    }
  }

  /** Replaying a non-decreasing clock from a fresh limiter keeps the invariant. */
  lemma {:induction false} ReplayKeepsInvariant(maxRequests: int, windowMs: int, times: seq<int>)
    requires maxRequests >= 0 && windowMs > 0
    requires NonDecreasing(times) && |times| > 0
    ensures ReplayInvariant(Replay(NewRateLimiter(maxRequests, windowMs), times),
                            times[|times| - 1], maxRequests, windowMs)
  {
    var rl := NewRateLimiter(maxRequests, windowMs);
    var n := |times|;
    var prefix := times[..n - 1];
    var prev := Replay(rl, prefix);
    if n == 1 {
      assert prev == Trace(rl, []);
      StepKeepsInvariant(prev, times[0], times[0], maxRequests, windowMs);
    } else {
      ReplayKeepsInvariant(maxRequests, windowMs, prefix);
      assert prefix[n - 2] == times[n - 2];
      StepKeepsInvariant(prev, times[n - 2], times[n - 1], maxRequests, windowMs);
    }
  }

  /** One more call extends a replay by one `canMakeRequest`. */
  lemma ReplayAppend(rl: RateLimiter, init: seq<int>, now: int)
    ensures var prev := Replay(rl, init);
            var a := CanMakeRequest(prev.limiter, now);
            Replay(rl, init + [now]) == Trace(a.limiter, if a.allowed then prev.admitted + [now] else prev.admitted)
  {
    assert (init + [now])[..|init|] == init;
  }

  /** The replay of calls at 0, 0, 2000 and then 10 on a limiter of two per second: the
      first two fill the window, 2000 empties it, and 10 finds the log holding only 2000. */
  lemma BackwardClockReplay()
    ensures Replay(RateLimiter([], 2, 1000), [0, 0, 2000, 10]).admitted == [0, 0, 2000, 10]
  {
    var rl := RateLimiter([], 2, 1000);
    ReplayAppend(rl, [], 0);
    assert [] + [0] == [0];
    var t1 := Replay(rl, [0]);
    assert t1 == Trace(rl.(timestamps := [0]), [0]);
    ReplayAppend(rl, [0], 0);
    assert [0] + [0] == [0, 0];
    var t2 := Replay(rl, [0, 0]);
    assert t2 == Trace(rl.(timestamps := [0, 0]), [0, 0]);
    ReplayAppend(rl, [0, 0], 2000);
    assert [0, 0] + [2000] == [0, 0, 2000];
    RecentOfExpired();
    var t3 := Replay(rl, [0, 0, 2000]);
    assert t3 == Trace(rl.(timestamps := [2000]), [0, 0, 2000]);
    ReplayAppend(rl, [0, 0, 2000], 10);
    assert [0, 0, 2000] + [10] == [0, 0, 2000, 10];
  }

  /** At time 2000 both calls at 0 have left a one-second window. */
  lemma RecentOfExpired()
    ensures Recent([0, 0], 2000, 1000) == []
  {
    assert [0, 0][..1] == [0];
  }

  /** Three of the times 0, 0, 2000 and 10 lie in [0, 10]. */
  lemma CountOfBackwardClock()
    ensures CountBetween([0, 0, 2000, 10], 0, 10) == 3
  {
    assert [0, 0, 2000, 10][..3] == [0, 0, 2000];
    assert [0, 0, 2000][..2] == [0, 0];
    assert [0, 0][..1] == [0];
    assert [0][..0] == [];
    assert CountBetween([0], 0, 10) == 1;
    assert CountBetween([0, 0], 0, 10) == 2;
    assert CountBetween([0, 0, 2000], 0, 10) == 2;
  }

  /** Without a monotone clock the window bound fails: after a step back from 2000 to 10,
      three calls at or before 10 are admitted by a limiter of two per second. */
  lemma BackwardClockExceedsWindow()
    ensures !NonDecreasing([0, 0, 2000, 10])
    ensures CountBetween(Replay(NewRateLimiter(2, 1000), [0, 0, 2000, 10]).admitted, 0, 10) == 3
  {
    assert [0, 0, 2000, 10][2] > [0, 0, 2000, 10][3];
    BackwardClockReplay();
    CountOfBackwardClock();
  }

  /** The application-wide limiter: among calls on a clock that never runs backwards, at
      most 30 are admitted within any span shorter than a minute. */
  lemma GlobalLimiterThirtyPerMinute(times: seq<int>, lo: int, hi: int)
    requires NonDecreasing(times) && hi - lo < DefaultWindowMs
    ensures CountBetween(Replay(NewRateLimiter(DefaultMaxRequests, DefaultWindowMs), times).admitted, lo, hi) <= 30
  {
    SlidingWindow(DefaultMaxRequests, DefaultWindowMs, times, lo, hi);
  }

  /** The sliding-window guarantee: with a clock that never runs backwards, the calls
      admitted within any interval shorter than the window number at most `maxRequests`. */
  lemma SlidingWindow(maxRequests: int, windowMs: int, times: seq<int>, lo: int, hi: int)
    requires maxRequests >= 0 && windowMs > 0
    requires NonDecreasing(times)
    requires hi - lo < windowMs
    ensures CountBetween(Replay(NewRateLimiter(maxRequests, windowMs), times).admitted, lo, hi) <= maxRequests
  {
    if |times| > 0 {
      ReplayKeepsInvariant(maxRequests, windowMs, times);
    }
  }
}

=== FILE: security.dfy ===
/** Input sanitisation and identifier helpers of the application's security layer
    (src/lib/security.ts): sanitizeText, sanitizeUrl, sanitizeEmail, sanitizeObject,
    isValidUUID and maskSensitive. Every sanitiser is total and reports rejection as
    the empty string. */
module Security {
  import opened Wrappers
  import opened Text
  import opened Numbers

  // ============================================================ sanitizeText

  /** Longest text `sanitizeText` keeps. */
  const MaxTextLength: nat := 10000

  /** Unicode NFKC normalisation is outside the model: callers supply it. */
  type Normalizer = string -> string

  predicate NulFree(s: string) {
    forall i :: 0 <= i < |s| ==> s[i] != '\0'
  }

  /** A normaliser that never introduces a NUL into a NUL-free string (NFKC is one). */
  ghost predicate KeepsNulFree(normalize: Normalizer) {
    forall s :: NulFree(s) ==> NulFree(normalize(s))
  }

  /** `s.replace(/\0/g, '')`: drops every NUL and keeps everything else in order. */
  function RemoveNul(s: string): (r: string)
    ensures NulFree(r)
    ensures NulFree(s) ==> r == s
    ensures multiset(r) == multiset(s)['\0' := 0]
  {
    if |s| == 0 then ""
    else
      var init := RemoveNul(s[..|s| - 1]);
      assert s == s[..|s| - 1] + [s[|s| - 1]];
      if s[|s| - 1] == '\0' then init else init + [s[|s| - 1]]
  }

  /** Removing NULs works piece by piece, so the kept characters stay in their order. */
  lemma {:induction false} RemoveNulConcat(a: string, b: string)
    ensures RemoveNul(a + b) == RemoveNul(a) + RemoveNul(b)
  {
    if |b| > 0 {
      var init := b[..|b| - 1];
      assert (a + b)[..|a + b| - 1] == a + init;
      RemoveNulConcat(a, init);
    } else {
      assert a + b == a;
    }
  }

  /** `sanitizeText`: remove NULs, normalise, trim, then keep the first 10000 characters. */
  function SanitizeText(input: string, normalize: Normalizer): (r: string)
    ensures input == "" ==> r == ""
    ensures |r| <= MaxTextLength
    ensures r == "" || !IsWhitespace(r[0])
    ensures KeepsNulFree(normalize) ==> NulFree(r)
    ensures input != "" ==>
              var cleaned := Trim(normalize(RemoveNul(input)));
              && StartsWith(cleaned, r)
              && (|cleaned| <= MaxTextLength ==> r == cleaned)
              && (|cleaned| > MaxTextLength ==> |r| == MaxTextLength)
  {
    if input == "" then ""
    else
      var cleaned := Trim(normalize(RemoveNul(input)));
      cleaned[..Min(|cleaned|, MaxTextLength)]
  }

  /** Trimming happens before the cut, so the kept text can end in whitespace: the
      10000th character of this input is a space and it survives. */
  lemma SanitizeTextKeepsTrailingSpace()
    ensures var input := seq(MaxTextLength - 1, _ => 'a') + " b";
            var r := SanitizeText(input, s => s);
            |r| == MaxTextLength && r[|r| - 1] == ' '
  {
    var input := seq(MaxTextLength - 1, _ => 'a') + " b";
    assert NulFree(input);
    assert RemoveNul(input) == input;
    assert Trim(input) == input;
  }

  // ============================================================ sanitizeUrl

  /** What the URL parser reports for a string it accepts. */
  datatype Url = Url(protocol: string, href: string)

  /** The WHATWG URL parser (`new URL(s)`) is outside the model: callers supply it;
      None stands for the parser throwing. */
  type UrlParser = string -> Option<Url>

  const AllowedProtocols: seq<string> := ["http:", "https:", "mailto:"]

  predicate IsRelativePath(s: string) {
    StartsWith(s, "/") || StartsWith(s, "./")
  }

  /** The href of a successful parse, or "" when the parse failed. */
  function HrefOrEmpty(parsed: Option<Url>): (href: string)
    ensures parsed.Some? ==> href == parsed.value.href
    ensures parsed.None? ==> href == ""
  {
    match parsed
    case Some(url) => url.href
    case None => ""
  }

  /** `sanitizeUrl`. */
  function SanitizeUrl(input: string, parse: UrlParser): (r: string)
    ensures input == "" ==> r == ""
    // a parseable input is kept, canonicalised, only when its scheme is allowed
    ensures input != "" && parse(Trim(input)).Some? ==>
              r == (if parse(Trim(input)).value.protocol in AllowedProtocols
                    then parse(Trim(input)).value.href else "")
    // an unparseable relative path passes through unchanged
    ensures input != "" && parse(Trim(input)).None? && IsRelativePath(Trim(input)) ==>
              r == Trim(input)
    // an unparseable input without a scheme separator is retried with "https://"
    ensures input != "" && parse(Trim(input)).None? && !IsRelativePath(Trim(input))
            && !Includes(Trim(input), "://") ==>
              r == HrefOrEmpty(parse("https://" + Trim(input)))
    // anything else is rejected
    ensures input != "" && parse(Trim(input)).None? && !IsRelativePath(Trim(input))
            && Includes(Trim(input), "://") ==>
              r == ""
  {
    if input == "" then ""
    else
      var trimmed := Trim(input);
      match parse(trimmed)
      case Some(url) =>
        if url.protocol in AllowedProtocols then url.href else ""
      case None =>
        if IsRelativePath(trimmed) then trimmed
        else if !Includes(trimmed, "://") then
          match parse("https://" + trimmed)
          case Some(url) => url.href
          case None => ""
        else ""
  }

  /** A parser that reads the scheme it was given: whatever it accepts that begins with
      "https://" it reports with protocol "https:" (the WHATWG parser does). */
  ghost predicate ReportsHttps(parse: UrlParser) {
    forall s :: StartsWith(s, "https://") && parse(s).Some? ==> parse(s).value.protocol == "https:"
  }

  /** No scheme outside the allow-list gets through: a non-empty result is either the
      trimmed input returned as a relative path the parser rejected, or the canonical href
      of a string the parser accepted with an allowed protocol. */
  lemma SanitizeUrlOnlyAllowedSchemes(input: string, parse: UrlParser)
    requires ReportsHttps(parse)
    ensures var r := SanitizeUrl(input, parse);
            || r == ""
            || (r == Trim(input) && IsRelativePath(r) && parse(r).None?)
            || (exists s :: parse(s).Some? && parse(s).value.href == r
                            && parse(s).value.protocol in AllowedProtocols)
  {
    var r := SanitizeUrl(input, parse);
    if input != "" {
      var trimmed := Trim(input);
      match parse(trimmed)
      case Some(url) =>
        if url.protocol in AllowedProtocols {
          assert parse(trimmed).value.href == r;
        }
      case None =>
        if !IsRelativePath(trimmed) && !Includes(trimmed, "://") {
          var s := "https://" + trimmed;
          if parse(s).Some? {
            assert s[..|"https://"|] == "https://";
            assert parse(s).value.protocol == "https:";
            assert parse(s).value.href == r;
          }
        }
    }
  }

  // ============================================================ sanitizeEmail

  /** A character of the class `[^\s@]`. */
  predicate IsAddressChar(c: char) {
    !IsWhitespace(c) && c != '@'
  }

  /** `s` splits as A "@" B "." C around positions `at` and `dot`, with A, B and C
      non-empty and every character except the '@' in `[^\s@]`. */
  predicate PatternSplit(s: string, at: int, dot: int) {
    && 0 < at && at + 1 < dot < |s| - 1
    && s[at] == '@' && s[dot] == '.'
    && forall i | 0 <= i < |s| :: i == at || IsAddressChar(s[i])
  }

  /** The test `/^[^\s@]+@[^\s@]+\.[^\s@]+$/.test(s)`. */
  predicate MatchesEmailPattern(s: string) {
    exists at, dot | 0 < at < dot < |s| :: PatternSplit(s, at, dot)
  }

  /** Index of the first `c` in `s`, or |s| when there is none. */
  function IndexOf(s: string, c: char): (k: nat)
    ensures k <= |s|
    ensures k < |s| ==> s[k] == c
    ensures forall i :: 0 <= i < k ==> s[i] != c
  {
    if |s| == 0 || s[0] == c then 0 else 1 + IndexOf(s[1..], c)
  }

  /** The text after the first '@', or "" when there is none. */
  function Domain(s: string): string {
    var at := IndexOf(s, '@');
    if at < |s| then s[at + 1..] else ""
  }

  /** An address in the shape a caller relies on: no whitespace, exactly one '@' with
      something before it, and a domain of at least three characters holding a '.'
      that is neither its first nor its last character. */
  ghost predicate WellFormedAddress(s: string) {
    && NoWhitespace(s)
    && multiset(s)['@'] == 1
    && IndexOf(s, '@') > 0
    && |Domain(s)| >= 3
    && '.' in Domain(s)[1..|Domain(s)| - 1]
  }

  /** A string with exactly one occurrence of `c`, at `k`, has `c` nowhere else. */
  lemma SingleOccurrence(s: string, c: char, k: int)
    requires 0 <= k < |s| && s[k] == c && multiset(s)[c] == 1
    ensures forall i :: 0 <= i < |s| && i != k ==> s[i] != c
  {
    assert s == s[..k] + [s[k]] + s[k + 1..];
    assert multiset(s) == multiset(s[..k]) + multiset{s[k]} + multiset(s[k + 1..]);
    assert multiset(s[..k])[c] == 0 && multiset(s[k + 1..])[c] == 0;
    forall i | 0 <= i < |s| && i != k
      ensures s[i] != c
    {
      if i < k {
        assert s[..k][i] == s[i];
      } else {
        assert s[k + 1..][i - k - 1] == s[i];
      }
    }
  }

  /** Every string the pattern accepts is a well-formed address. */
  lemma PatternImpliesWellFormed(s: string, at: int, dot: int)
    requires PatternSplit(s, at, dot)
    ensures WellFormedAddress(s)
  {
    assert IndexOf(s, '@') == at;
    var front, back := s[..at], s[at + 1..];
    assert s == front + [s[at]] + back;
    assert multiset(s) == multiset(front) + multiset{s[at]} + multiset(back);
    assert '@' !in front by {
      forall i | 0 <= i < |front| ensures front[i] != '@' {
        assert IsAddressChar(s[i]);
      }
    }
    assert '@' !in back by {
      forall i | 0 <= i < |back| ensures back[i] != '@' {
        assert back[i] == s[at + 1 + i];
        assert IsAddressChar(s[at + 1 + i]);
      }
    }
    var domain := Domain(s);
    assert domain == back;
    assert domain[1..|domain| - 1][dot - at - 2] == '.';
    assert NoWhitespace(s) by {
      forall i | 0 <= i < |s| ensures !IsWhitespace(s[i]) {
        if i != at { assert IsAddressChar(s[i]); }
      }
    }
  }

  /** Every well-formed address is accepted by the pattern. */
  lemma WellFormedImpliesPattern(s: string)
    requires WellFormedAddress(s)
    ensures MatchesEmailPattern(s)
  {
    var at := IndexOf(s, '@');
    var domain := Domain(s);
    assert domain == s[at + 1..];
    var inner := domain[1..|domain| - 1];
    var j :| 0 <= j < |inner| && inner[j] == '.';
    var dot := at + 2 + j;
    assert s[dot] == '.';
    SingleOccurrence(s, '@', at);
    assert PatternSplit(s, at, dot);
  }

  /** The pattern accepts exactly the well-formed addresses. */
  lemma EmailPatternIffWellFormed(s: string)
    ensures MatchesEmailPattern(s) <==> WellFormedAddress(s)
  {
    if MatchesEmailPattern(s) {
      var at, dot :| 0 < at < dot < |s| && PatternSplit(s, at, dot);
      PatternImpliesWellFormed(s, at, dot);
    }
    if WellFormedAddress(s) {
      WellFormedImpliesPattern(s);
    }
  }

  /** `sanitizeEmail`: the trimmed, lower-cased input when it has the shape of an
      address, "" otherwise. */
  function SanitizeEmail(input: string): (r: string)
    ensures r == "" || r == ToLower(Trim(input))
    ensures r != "" <==> MatchesEmailPattern(ToLower(Trim(input)))
    ensures r != "" ==> WellFormedAddress(r)
  {
    if input == "" then ""
    else
      var normal := ToLower(Trim(input));
      EmailPatternIffWellFormed(normal);
      if MatchesEmailPattern(normal) then normal else ""
  }

  /** Sanitising an already sanitised address changes nothing. */
  lemma SanitizeEmailIdempotent(input: string)
    ensures SanitizeEmail(SanitizeEmail(input)) == SanitizeEmail(input)
  {
    var r := SanitizeEmail(input);
    if r != "" {
      assert NoWhitespace(r);
      assert Trim(r) == r;
      ToLowerIdempotent(Trim(input));
    }
  }

  lemma TrimExample()
    ensures Trim("  User@Example.COM ") == "User@Example.COM"
  {
    var input := "  User@Example.COM ";
    var core := "User@Example.COM";
    assert input[1..][1..] == input[2..] == core + " ";
    assert IsWhitespace(input[0]) && IsWhitespace(input[1..][0]) && !IsWhitespace(input[2..][0]);
    assert LeadingWhitespace(input[2..]) == 0;
    assert LeadingWhitespace(input) == 2;
    var t := input[2..];
    assert t[..|t| - 1] == core;
    assert IsWhitespace(t[|t| - 1]) && !IsWhitespace(core[|core| - 1]);
    assert TrailingWhitespaceStart(core) == |core|;
    assert TrailingWhitespaceStart(t) == |core|;
  }

  lemma LowerExample()
    ensures ToLower("User@Example.COM") == "user@example.com"
  {
  }

  lemma PatternExample()
    ensures MatchesEmailPattern("user@example.com")
  {
    assert PatternSplit("user@example.com", 4, 12);
  }

  lemma SanitizeEmailAcceptsExample()
    ensures SanitizeEmail("  User@Example.COM ") == "user@example.com"
  {
    TrimExample();
    LowerExample();
    PatternExample();
  }

  lemma SanitizeEmailRejectsExample()
    ensures SanitizeEmail("not-an-email") == ""
  {
    var s := "not-an-email";
    assert !IsWhitespace(s[0]) && !IsWhitespace(s[|s| - 1]);
    assert Trim(s) == s;
    assert ToLower(s) == s;
    assert '@' !in s;
    assert !MatchesEmailPattern(s);
  }

  // ============================================================ sanitizeObject

  /** Which sanitiser a field gets. */
  datatype FieldKind = UrlField | EmailField | TextField

  /** The priority rule: a URL field wins over an email field; everything else is text. */
  function KindOf(key: string, urlFields: seq<string>, emailFields: seq<string>): (kind: FieldKind)
    ensures kind == UrlField <==> key in urlFields
    ensures kind == EmailField <==> key !in urlFields && key in emailFields
  {
    if key in urlFields then UrlField
    else if key in emailFields then EmailField
    else TextField
  }

  function SanitizeField(kind: FieldKind, value: string, normalize: Normalizer, parse: UrlParser): string {
    match kind
    case UrlField => SanitizeUrl(value, parse)
    case EmailField => SanitizeEmail(value)
    case TextField => SanitizeText(value, normalize)
  }

  /** `sanitizeObject`: a new record with the same keys, every value passed through the
      sanitiser its key selects. */
  function SanitizeObject(obj: map<string, string>, urlFields: seq<string>, emailFields: seq<string>,
                          normalize: Normalizer, parse: UrlParser): (r: map<string, string>)
    ensures r.Keys == obj.Keys
    ensures forall k | k in obj && k in urlFields :: r[k] == SanitizeUrl(obj[k], parse)
    ensures forall k | k in obj && k !in urlFields && k in emailFields :: r[k] == SanitizeEmail(obj[k])
    ensures forall k | k in obj && k !in urlFields && k !in emailFields ::
              r[k] == SanitizeText(obj[k], normalize)
  {
    map k | k in obj :: SanitizeField(KindOf(k, urlFields, emailFields), obj[k], normalize, parse)
  }

  // ============================================================ isValidUUID

  predicate IsHexDigit(c: char) {
    '0' <= c <= '9' || 'a' <= c <= 'f' || 'A' <= c <= 'F'
  }

  predicate AllHex(s: string) {
    forall i :: 0 <= i < |s| ==> IsHexDigit(s[i])
  }

  /** The pattern `/^[0-9a-f]{8}-[0-9a-f]{4}-[1-5][0-9a-f]{3}-[89ab][0-9a-f]{3}-[0-9a-f]{12}$/i`,
      group by group; the `i` flag admits upper-case hex digits and 'A'/'B' in the variant. */
  predicate MatchesUuidPattern(s: string) {
    && |s| == 36
    && AllHex(s[0..8]) && s[8] == '-'
    && AllHex(s[9..13]) && s[13] == '-'
    && '1' <= s[14] <= '5' && AllHex(s[15..18]) && s[18] == '-'
    && s[19] in "89abAB" && AllHex(s[20..23]) && s[23] == '-'
    && AllHex(s[24..36])
  }

  /** What position `i` of a UUID admits. */
  predicate UuidCharAt(i: int, c: char) {
    if i == 8 || i == 13 || i == 18 || i == 23 then c == '-'
    else if i == 14 then '1' <= c <= '5'
    else if i == 19 then c in "89abAB"
    else IsHexDigit(c)
  }

  lemma AllHexSlice(s: string, lo: int, hi: int)
    requires 0 <= lo <= hi <= |s|
    ensures AllHex(s[lo..hi]) <==> forall i :: lo <= i < hi ==> IsHexDigit(s[i])
  {
    if forall i :: lo <= i < hi ==> IsHexDigit(s[i]) {
      forall k | 0 <= k < hi - lo ensures IsHexDigit(s[lo..hi][k]) {
        assert s[lo..hi][k] == s[lo + k];
      }
    }
    if AllHex(s[lo..hi]) {
      forall i | lo <= i < hi ensures IsHexDigit(s[i]) {
        assert s[lo..hi][i - lo] == s[i];
      }
    }
  }

  /** `isValidUUID`: a position-by-position check that accepts exactly what the pattern accepts. */
  function IsValidUuid(id: string): (ok: bool)
    ensures ok <==> MatchesUuidPattern(id)
  {
    if |id| != 36 then false
    else
      AllHexSlice(id, 0, 8);
      AllHexSlice(id, 9, 13);
      AllHexSlice(id, 15, 18);
      AllHexSlice(id, 20, 23);
      AllHexSlice(id, 24, 36);
      forall i | 0 <= i < 36 :: UuidCharAt(i, id[i])
  }

  // ============================================================ maskSensitive

  const DefaultVisibleChars: int := 4

  /** `maskSensitive(data, visibleChars)`, with the semantics of `slice` for every integer. */
  function MaskSensitive(data: string, visibleChars: int): (r: string)
    ensures |data| == 0 || |data| <= visibleChars ==> r == "***"
    ensures 0 < visibleChars < |data| ==>
              && r == data[..visibleChars] + "***" + data[|data| - visibleChars..]
              && |r| == 2 * visibleChars + 3
    ensures visibleChars == 0 && |data| > 0 ==> r == "***" + data
    ensures visibleChars < 0 && -visibleChars < |data| ==>
              r == data[..|data| + visibleChars] + "***" + data[-visibleChars..]
    ensures visibleChars < 0 && 0 < |data| <= -visibleChars ==> r == "***"
  {
    if |data| == 0 || |data| <= visibleChars then "***"
    else Slice(data, 0, visibleChars) + "***" + SliceFrom(data, -visibleChars)
  }

  /** With the default of four visible characters, a six-character secret is shown in
      full: the two ends overlap. */
  lemma MaskDefaultRevealsShortSecret()
    ensures MaskSensitive("abcdef", DefaultVisibleChars) == "abcd***cdef"
  {
    assert "abcdef"[..4] == "abcd" && "abcdef"[2..] == "cdef";
  }

  /** With no visible characters asked for, `slice(-0)` is the whole string, so the
      mask shows the data in full. */
  lemma MaskZeroRevealsAll(data: string)
    requires |data| > 0
    ensures var r := MaskSensitive(data, 0);
            r[|r| - |data|..] == data
  {
  }

  /** When the data is at most twice as long as the visible part, prefix and suffix
      overlap and together spell out the whole data. */
  lemma MaskOverlapRevealsAll(data: string, visibleChars: int)
    requires 0 < visibleChars < |data| <= 2 * visibleChars
    ensures var r := MaskSensitive(data, visibleChars);
            data == r[..visibleChars] + r[|r| - (|data| - visibleChars)..]
  {
    var r := MaskSensitive(data, visibleChars);
    assert r[..visibleChars] == data[..visibleChars];
    assert r[|r| - (|data| - visibleChars)..] == data[visibleChars..];
    assert data == data[..visibleChars] + data[visibleChars..];
  }

  /** The mask as evidently intended: it shows at most `visibleChars` characters at each
      end and always hides at least one, and agrees with `MaskSensitive` whenever the
      two ends do not meet. */
  function MaskSensitiveCorrected(data: string, visibleChars: int): (r: string)
    ensures |r| >= 3
    ensures r == "***" || (0 < visibleChars && 2 * visibleChars < |data|)
    ensures |r| - 3 <= 2 * Max(visibleChars, 0)
    ensures |data| > 0 ==> |r| - 3 < |data|
    ensures 0 < visibleChars && 2 * visibleChars < |data| ==> r == MaskSensitive(data, visibleChars)
  {
    if visibleChars <= 0 || |data| <= 2 * visibleChars then "***"
    else data[..visibleChars] + "***" + data[|data| - visibleChars..]
  }
}

=== FILE: text.dfy ===
/** The JavaScript string built-ins the modelled code relies on, over `string`
    (a sequence of Unicode scalar values): trim, ASCII lower-casing, includes,
    startsWith, slice, String(n) for naturals and padStart. */
module Text {

  /** The characters ECMAScript counts as WhiteSpace or LineTerminator: the set
      `String.prototype.trim` strips and the regular-expression class `\s` matches. */
  predicate IsWhitespace(c: char) {
    || c == '\t' || c == '\n' || c == '\U{B}' || c == '\U{C}' || c == '\r' || c == ' '
    || c == '\U{A0}' || c == '\U{1680}' || ('\U{2000}' <= c <= '\U{200A}')
    || c == '\U{2028}' || c == '\U{2029}' || c == '\U{202F}' || c == '\U{205F}'
    || c == '\U{3000}' || c == '\U{FEFF}'
  }

  predicate NoWhitespace(s: string) {
    forall i :: 0 <= i < |s| ==> !IsWhitespace(s[i])
  }

  predicate AllWhitespace(s: string) {
    forall i :: 0 <= i < |s| ==> IsWhitespace(s[i])
  }

  /** Number of whitespace characters at the start of `s`. */
  function LeadingWhitespace(s: string): (k: nat)
    ensures k <= |s|
    ensures forall i :: 0 <= i < k ==> IsWhitespace(s[i])
    ensures k < |s| ==> !IsWhitespace(s[k])
  {
    if |s| == 0 || !IsWhitespace(s[0]) then 0 else 1 + LeadingWhitespace(s[1..])
  }

  /** Index where the run of whitespace at the end of `s` begins. */
  function TrailingWhitespaceStart(s: string): (k: nat)
    ensures k <= |s|
    ensures forall i :: k <= i < |s| ==> IsWhitespace(s[i])
    ensures 0 < k ==> !IsWhitespace(s[k - 1])
  {
    if |s| == 0 || !IsWhitespace(s[|s| - 1]) then |s| else TrailingWhitespaceStart(s[..|s| - 1])
  }

  /** `String.prototype.trim`: drops whitespace at both ends. */
  function Trim(s: string): (r: string)
    ensures |r| <= |s|
    ensures r == "" || (!IsWhitespace(r[0]) && !IsWhitespace(r[|r| - 1]))
    ensures forall c :: c in r ==> c in s
    ensures s == "" || (!IsWhitespace(s[0]) && !IsWhitespace(s[|s| - 1])) ==> r == s
    // the result is `s` with a run of whitespace cut off at each end
    ensures exists i | 0 <= i <= |s| - |r| ::
              s[i..i + |r|] == r && AllWhitespace(s[..i]) && AllWhitespace(s[i + |r|..])
  {
    var k := LeadingWhitespace(s);
    var t := s[k..];
    var e := TrailingWhitespaceStart(t);
    var r := t[..e];
    assert s[k..k + |r|] == r;
    assert s[k + |r|..] == t[e..];
    LeadingRunIsWhitespace(s);
    TrailingRunIsWhitespace(t);
    WhitespaceAround(s, k, r);
    r
  }

  lemma LeadingRunIsWhitespace(s: string)
    ensures AllWhitespace(s[..LeadingWhitespace(s)])
  {
    var k := LeadingWhitespace(s);
    forall i | 0 <= i < k ensures IsWhitespace(s[..k][i]) {
      assert s[..k][i] == s[i];
    }
  }

  lemma TrailingRunIsWhitespace(t: string)
    ensures AllWhitespace(t[TrailingWhitespaceStart(t)..])
  {
    var e := TrailingWhitespaceStart(t);
    var tail := t[e..];
    forall i | 0 <= i < |tail| ensures IsWhitespace(tail[i]) {
      assert tail[i] == t[e + i];
    }
  }

  /** `r` sits at `k` in `s` between two runs of whitespace. */
  lemma WhitespaceAround(s: string, k: nat, r: string)
    requires k + |r| <= |s| && s[k..k + |r|] == r
    requires AllWhitespace(s[..k]) && AllWhitespace(s[k + |r|..])
    ensures exists i | 0 <= i <= |s| - |r| ::
              s[i..i + |r|] == r && AllWhitespace(s[..i]) && AllWhitespace(s[i + |r|..])
  {
  }

  /** `toLowerCase` restricted to ASCII letters. */
  function LowerChar(c: char): (d: char)
    ensures !('A' <= d <= 'Z')
    ensures !('A' <= c <= 'Z') ==> d == c
  {
    if 'A' <= c <= 'Z' then (c as int + 32) as char else c
  }

  function ToLower(s: string): (r: string)
    ensures |r| == |s|
    ensures forall i :: 0 <= i < |s| ==> r[i] == LowerChar(s[i])
  {
    seq(|s|, i requires 0 <= i < |s| => LowerChar(s[i]))
  }

  lemma ToLowerIdempotent(s: string)
    ensures ToLower(ToLower(s)) == ToLower(s)
  {
  }

  /** `hay.includes(needle)`: `needle` occurs as a contiguous factor of `hay`. */
  predicate Includes(hay: string, needle: string) {
    exists i | 0 <= i <= |hay| - |needle| :: OccursAt(hay, needle, i)
  }

  /** `needle` occurs in `hay` starting at index `i`. */
  predicate OccursAt(hay: string, needle: string, i: int) {
    0 <= i && i + |needle| <= |hay| && hay[i..i + |needle|] == needle
  }

  /** Containment of factors is transitive. */
  lemma IncludesTransitive(a: string, b: string, c: string)
    requires Includes(a, b) && Includes(b, c)
    ensures Includes(a, c)
  {
    var i :| 0 <= i <= |a| - |b| && OccursAt(a, b, i);
    var j :| 0 <= j <= |b| - |c| && OccursAt(b, c, j);
    assert b == a[i..i + |b|];
    forall k | 0 <= k < |c|
      ensures a[i + j..i + j + |c|][k] == c[k]
    {
      assert c[k] == b[j + k] == a[i + j + k];
    }
    assert a[i + j..i + j + |c|] == c;
    assert OccursAt(a, c, i + j);
  }

  /** Lower-casing both sides keeps a factor a factor. */
  lemma IncludesToLower(hay: string, needle: string)
    requires Includes(hay, needle)
    ensures Includes(ToLower(hay), ToLower(needle))
  {
    var i :| 0 <= i <= |hay| - |needle| && OccursAt(hay, needle, i);
    assert ToLower(hay)[i..i + |needle|] == ToLower(needle);
    assert OccursAt(ToLower(hay), ToLower(needle), i);
  }

  predicate StartsWith(s: string, prefix: string) {
    |prefix| <= |s| && s[..|prefix|] == prefix
  }

  // ---------------------------------------------------------------- digits

  predicate IsDigit(c: char) {
    '0' <= c <= '9'
  }

  predicate AllDigits(s: string) {
    forall i :: 0 <= i < |s| ==> IsDigit(s[i])
  }

  function DigitValue(c: char): (d: nat)
    requires IsDigit(c)
    ensures d < 10
  {
    c as int - '0' as int
  }

  function DigitChar(d: nat): (c: char)
    requires d < 10
    ensures IsDigit(c) && DigitValue(c) == d
  {
    ('0' as int + d) as char
  }

  /** The value of a run of decimal digits, as `parseInt` reads it. */
  function DigitsValue(s: string): nat
    requires AllDigits(s)
  {
    if |s| == 0 then 0 else 10 * DigitsValue(s[..|s| - 1]) + DigitValue(s[|s| - 1])
  }

  /** A two-digit run reads as tens and units. */
  lemma TwoDigitsValue(s: string)
    requires |s| == 2 && AllDigits(s)
    ensures DigitsValue(s) == 10 * DigitValue(s[0]) + DigitValue(s[1]) < 100
  {
    var first := s[..1];
    assert first[..0] == [] && first[0] == s[0];
    assert DigitsValue(first) == DigitValue(s[0]);
    assert s[..|s| - 1] == first;
  }

  /** A run of four digits reads below 10000. */
  lemma FourDigitsValue(s: string)
    requires |s| == 4 && AllDigits(s)
    ensures DigitsValue(s) < 10000
  {
    var a := s[..3];
    var b := a[..2];
    assert a[..|a| - 1] == b;
    assert s[..|s| - 1] == a;
    TwoDigitsValue(b);
  }

  /** Number of digits in the decimal form of `n`. */
  function DecimalWidth(n: nat): nat {
    if n < 10 then 1 else 1 + DecimalWidth(n / 10)
  }

  /** Numbers from 1000 to 9999 have four decimal digits. */
  lemma FourDigitWidth(n: nat)
    requires 1000 <= n <= 9999
    ensures DecimalWidth(n) == 4
  {
    assert n / 10 / 10 == n / 100 && n / 100 / 10 == n / 1000;
    assert DecimalWidth(n / 1000) == 1;
    assert DecimalWidth(n / 100) == 2;
    assert DecimalWidth(n / 10) == 3;
  }

  /** `String(n)` for a natural number: its decimal digits, no leading zero. */
  function Decimal(n: nat): (r: string)
    ensures AllDigits(r) && DigitsValue(r) == n
    ensures |r| == DecimalWidth(n)
    ensures 1 < |r| ==> r[0] != '0'
  {
    if n < 10 then [DigitChar(n)]
    else
      var p := Decimal(n / 10);
      var r := p + [DigitChar(n % 10)];
      assert r[..|r| - 1] == p;
      r
  }

  /** `s.padStart(width, fill)` for a one-character filler. */
  function PadStart(s: string, width: nat, fill: char): (r: string)
    ensures |r| == if |s| < width then width else |s|
    ensures r[|r| - |s|..] == s
    ensures forall i :: 0 <= i < |r| - |s| ==> r[i] == fill
  {
    if |s| >= width then s else seq(width - |s|, _ => fill) + s
  }

  /** `String(n).padStart(2, '0')`: below 100 this is exactly two digits that read back as `n`. */
  function Pad2(n: nat): (r: string)
    ensures n < 100 ==> |r| == 2 && AllDigits(r) && DigitsValue(r) == n
  {
    var r := PadStart(Decimal(n), 2, '0');
    if n < 10 then
      assert r == ['0', DigitChar(n)];
      assert r[..1] == ['0'];
      r
    else
      r
  }

  /** Below 100, the padded form is the tens digit followed by the units digit. */
  lemma Pad2Digits(n: nat)
    requires n < 100
    ensures Pad2(n) == [DigitChar(n / 10), DigitChar(n % 10)]
  {
    var r := Pad2(n);
    TwoDigitsValue(r);
    TensAndUnits(n, DigitValue(r[0]), DigitValue(r[1]));
    DigitCharOfValue(r[0]);
    DigitCharOfValue(r[1]);
    assert r == [r[0], r[1]];
  }

  /** Division by ten splits a number into its tens and its units. */
  lemma TensAndUnits(n: nat, tens: nat, units: nat)
    requires n == 10 * tens + units && units < 10
    ensures n / 10 == tens && n % 10 == units
  {
  }

  lemma DigitCharOfValue(c: char)
    requires IsDigit(c)
    ensures DigitChar(DigitValue(c)) == c
  {
  }

  // ---------------------------------------------------------------- slice

  /** How `String.prototype.slice` resolves a position `k` on a string of length `n`:
      negative positions count from the end, and both ends clamp. */
  function RelativeIndex(n: nat, k: int): (i: nat)
    ensures i <= n
    ensures 0 <= k <= n ==> i == k
    ensures -(n as int) <= k < 0 ==> i == n + k
    ensures k > n ==> i == n
    ensures k < -(n as int) ==> i == 0
  {
    if k < 0 then (if n + k < 0 then 0 else n + k) else (if k > n then n else k)
  }

  /** `s.slice(start, end)` */
  function Slice(s: string, start: int, end: int): (r: string)
    ensures 0 <= start <= end <= |s| ==> r == s[start..end]
    ensures end < 0 && 0 <= start <= |s| + end ==> r == s[start..|s| + end]
    ensures 0 <= start && end <= -(|s| as int) ==> r == ""
  {
    var a := RelativeIndex(|s|, start);
    var b := RelativeIndex(|s|, end);
    if a < b then s[a..b] else ""
  }

  /** `s.slice(start)` */
  function SliceFrom(s: string, start: int): (r: string)
    ensures 0 <= start <= |s| ==> r == s[start..]
    ensures -(|s| as int) <= start < 0 ==> r == s[|s| + start..]
    ensures start >= |s| ==> r == ""
    ensures start < -(|s| as int) ==> r == s
  {
    s[RelativeIndex(|s|, start)..]
  }
}

=== FILE: time_picker.dfy ===
/** The time picker (src/components/CustomTimePicker.tsx): the selection read from an
    "HH:MM" value, the trigger-button label, the value Apply emits, the quick-select
    presets and Clear. Rendering and scrolling are not modelled. */
module TimePicker {
  import opened Wrappers
  import opened Text

  datatype Period = AM | PM

  /** The picker's selection: hour on the 12-hour dial, minute and period. */
  datatype Selection = Selection(hours: nat, minutes: nat, period: Period)

  /** A selection the dial offers: hours 1 to 12, minutes 0 to 59. */
  predicate ValidSelection(sel: Selection) {
    1 <= sel.hours <= 12 && sel.minutes < 60
  }

  /** A zero-padded "HH:MM" string: two digits, ':', two digits. */
  predicate WellFormedTime(v: string) {
    |v| == 5 && IsDigit(v[0]) && IsDigit(v[1]) && v[2] == ':' && IsDigit(v[3]) && IsDigit(v[4])
  }

  /** A value the picker is given: empty (no time yet) or "HH:MM". */
  predicate AcceptableValue(v: string) {
    v == "" || WellFormedTime(v)
  }

  /** A well-formed value that names a real time of day. */
  predicate IsTimeOfDay(v: string) {
    WellFormedTime(v) && HourField(v) <= 23 && MinuteField(v) <= 59
  }

  /** `parseInt(value.split(':')[0])` */
  function HourField(v: string): (h: nat)
    requires WellFormedTime(v)
    ensures h < 100
  {
    TwoDigitsValue(v[..2]);
    DigitsValue(v[..2])
  }

  /** `parseInt(value.split(':')[1])` */
  function MinuteField(v: string): (m: nat)
    requires WellFormedTime(v)
    ensures m < 100
  {
    TwoDigitsValue(v[3..]);
    DigitsValue(v[3..])
  }

  // ------------------------------------------------------------ initialisers

  /** The hours initialiser: the 12-hour dial position of the value's hour. */
  function InitialHours(value: string): (h: nat)
    requires AcceptableValue(value)
    ensures value == "" ==> h == 12
    ensures value != "" && HourField(value) <= 23 ==> 1 <= h <= 12 && h % 12 == HourField(value) % 12
  {
    if value == "" then 12
    else
      var hour := HourField(value);
      if hour == 0 then 12 else if hour > 12 then hour - 12 else hour
  }

  /** The minutes initialiser. */
  function InitialMinutes(value: string): (m: nat)
    requires AcceptableValue(value)
    ensures value == "" ==> m == 0
    ensures value != "" ==> m == MinuteField(value)
  {
    if value == "" then 0 else MinuteField(value)
  }

  /** The period initialiser: afternoon from hour 12 on, and PM for an empty value. */
  function InitialPeriod(value: string): (p: Period)
    requires AcceptableValue(value)
    ensures value == "" ==> p == PM
    ensures value != "" ==> (p == PM <==> HourField(value) >= 12)
  {
    if value == "" then PM
    else if HourField(value) >= 12 then PM else AM
  }

  /** The state the three initialisers give the picker. */
  function InitialSelection(value: string): (sel: Selection)
    requires AcceptableValue(value)
    ensures value == "" ==> sel == Selection(12, 0, PM)
    ensures IsTimeOfDay(value) ==> ValidSelection(sel)
  {
    Selection(InitialHours(value), InitialMinutes(value), InitialPeriod(value))
  }

  // ------------------------------------------------------------ display and apply

  function PeriodName(p: Period): string {
    match p
    case AM => "AM"
    case PM => "PM"
  }

  /** `formatDisplayTime`: the trigger-button label, "h:MM AM" or "h:MM PM". */
  function FormatDisplayTime(timeStr: string): (shown: string)
    requires AcceptableValue(timeStr)
    ensures timeStr == "" ==> shown == "Select time"
    ensures timeStr != "" ==>
              shown == Decimal(InitialHours(timeStr)) + ":" + timeStr[3..] + " "
                       + PeriodName(InitialPeriod(timeStr))
  {
    if timeStr == "" then "Select time"
    else
      var hour := HourField(timeStr);
      var ampm := if hour >= 12 then "PM" else "AM";
      var hour12 := if hour == 0 then 12 else if hour > 12 then hour - 12 else hour;
      Decimal(hour12) + ":" + timeStr[3..] + " " + ampm
  }

  /** The 24-hour hour `handleApply` computes from the dial. */
  function Hour24(sel: Selection): (h: nat)
    ensures 1 <= sel.hours <= 12 ==>
              && h <= 23
              && (sel.period.AM? <==> h < 12)
              && h % 12 == sel.hours % 12
  {
    if sel.period == PM && sel.hours != 12 then sel.hours + 12
    else if sel.period == AM && sel.hours == 12 then 0
    else sel.hours
  }

  /** Two two-digit fields joined by ':' form a well-formed value whose fields read back. */
  lemma JoinFields(hh: string, mm: string)
    requires |hh| == 2 && |mm| == 2 && AllDigits(hh) && AllDigits(mm)
    ensures WellFormedTime(hh + ":" + mm)
    ensures HourField(hh + ":" + mm) == DigitsValue(hh)
    ensures MinuteField(hh + ":" + mm) == DigitsValue(mm)
  {
    var v := hh + ":" + mm;
    assert v[..2] == hh;
    assert v[3..] == mm;
  }

  /** The string `handleApply` emits: zero-padded hour, ':', zero-padded minute. */
  function ApplyTime(sel: Selection): (v: string)
    ensures ValidSelection(sel) ==>
              && IsTimeOfDay(v)
              && HourField(v) == Hour24(sel)
              && MinuteField(v) == sel.minutes
  {
    var hh := Pad2(Hour24(sel));
    var mm := Pad2(sel.minutes);
    if ValidSelection(sel) then
      JoinFields(hh, mm);
      hh + ":" + mm
    else hh + ":" + mm
  }

  /** Two two-digit strings with the same value are the same string. */
  lemma TwoDigitsDetermined(a: string, b: string)
    requires |a| == 2 && |b| == 2 && AllDigits(a) && AllDigits(b)
    requires DigitsValue(a) == DigitsValue(b)
    ensures a == b
  {
    TwoDigitsValue(a);
    TwoDigitsValue(b);
  }

  /** Opening the picker on a time of day and applying it unchanged gives back the value. */
  lemma ApplyInitialRoundTrip(v: string)
    requires IsTimeOfDay(v)
    ensures ApplyTime(InitialSelection(v)) == v
  {
    var sel := InitialSelection(v);
    var out := ApplyTime(sel);
    var h := HourField(v);
    if h == 0 {
      assert sel.hours == 12 && sel.period == AM;
    } else if h < 12 {
      assert sel.hours == h && sel.period == AM;
    } else if h == 12 {
      assert sel.hours == 12 && sel.period == PM;
    } else {
      assert sel.hours == h - 12 && sel.period == PM;
    }
    assert Hour24(sel) == h;
    TwoDigitsDetermined(out[..2], v[..2]);
    TwoDigitsDetermined(out[3..], v[3..]);
    assert out == out[..2] + [':'] + out[3..];
    assert v == v[..2] + [':'] + v[3..];
  }

  /** The 12-hour reading of a 24-hour hour undoes `Hour24`. */
  lemma DialOfHour24(sel: Selection)
    requires ValidSelection(sel)
    ensures var h := Hour24(sel);
            (if h == 0 then 12 else if h > 12 then h - 12 else h) == sel.hours
            && (h >= 12 <==> sel.period.PM?)
  {
  }

  /** Every dial selection survives being emitted and read back by the initialisers. */
  lemma InitialApplyRoundTrip(sel: Selection)
    requires ValidSelection(sel)
    ensures InitialSelection(ApplyTime(sel)) == sel
  {
    var v := ApplyTime(sel);
    assert v != "" && HourField(v) == Hour24(sel) && MinuteField(v) == sel.minutes;
    DialOfHour24(sel);
    assert InitialHours(v) == sel.hours;
    assert InitialMinutes(v) == sel.minutes;
    assert InitialPeriod(v) == sel.period;
  }

  // ------------------------------------------------------------ events

  /** A quick-select button: its caption and the selection it sets. */
  datatype Preset = Preset(caption: string, hours: nat, minutes: nat, period: Period)

  const Presets: seq<Preset> := [
    Preset("9 AM", 9, 0, AM),
    Preset("12 PM", 12, 0, PM),
    Preset("3 PM", 3, 0, PM),
    Preset("6 PM", 6, 0, PM)
  ]

  /** What the user can do with the picker. */
  datatype Event =
    | Toggle                         // the trigger button
    | Dismiss                        // the backdrop
    | PickHour(hour: nat)            // a button of the hour column
    | PickMinute(minute: nat)        // a button of the minute column
    | PickPeriod(period: Period)     // AM or PM
    | PickPreset(preset: Preset)     // a quick-select button
    | Apply
    | Clear

  /** The events the rendered picker can produce: hour buttons 1 to 12, minute buttons
      0 to 59 and the four presets. */
  predicate OfferedEvent(ev: Event) {
    match ev
    case PickHour(h) => 1 <= h <= 12
    case PickMinute(m) => m < 60
    case PickPreset(p) => p in Presets
    case _ => true
  }

  datatype PickerState = PickerState(selection: Selection, open: bool)

  /** The state after an event, and the value handed to `onChange`, if any. */
  datatype Outcome = Outcome(state: PickerState, emitted: Option<string>)

  /** The picker as first rendered for `value`: closed, selection from the initialisers. */
  function Mount(value: string): (st: PickerState)
    requires AcceptableValue(value)
    ensures !st.open && st.selection == InitialSelection(value)
  {
    PickerState(InitialSelection(value), false)
  }

  /** Reopening the picker on the value it just emitted shows the selection that was
      applied. */
  lemma MountOnApplied(sel: Selection)
    requires ValidSelection(sel)
    ensures AcceptableValue(ApplyTime(sel))
    ensures Mount(ApplyTime(sel)) == PickerState(sel, false)
  {
    InitialApplyRoundTrip(sel);
  }

  function Handle(st: PickerState, ev: Event): (o: Outcome)
    ensures ev == Apply ==> o.emitted == Some(ApplyTime(st.selection)) && !o.state.open
    ensures ev == Clear ==> o.emitted == Some("") && !o.state.open
    ensures ev in {Apply, Clear} ==> o.state.selection == st.selection
    ensures ev != Apply && ev != Clear ==> o.emitted == None
    ensures ev == Toggle ==> o == Outcome(st.(open := !st.open), None)
    ensures ev == Dismiss ==> o == Outcome(st.(open := false), None)
    ensures ev.PickHour? ==> o == Outcome(st.(selection := st.selection.(hours := ev.hour)), None)
    ensures ev.PickMinute? ==> o == Outcome(st.(selection := st.selection.(minutes := ev.minute)), None)
    ensures ev.PickPeriod? ==> o == Outcome(st.(selection := st.selection.(period := ev.period)), None)
    ensures ev.PickPreset? ==> o == Outcome(st.(selection := PresetSelection(ev.preset)), None)
    ensures ValidSelection(st.selection) && OfferedEvent(ev) ==> ValidSelection(o.state.selection)
  {
    var sel := st.selection;
    match ev
    case Toggle => Outcome(st.(open := !st.open), None)
    case Dismiss => Outcome(st.(open := false), None)
    case PickHour(h) => Outcome(st.(selection := sel.(hours := h)), None)
    case PickMinute(m) => Outcome(st.(selection := sel.(minutes := m)), None)
    case PickPeriod(p) => Outcome(st.(selection := sel.(period := p)), None)
    case PickPreset(p) => Outcome(st.(selection := PresetSelection(p)), None)
    case Apply => Outcome(st.(open := false), Some(ApplyTime(sel)))
    case Clear => Outcome(st.(open := false), Some(""))
  }

  /** The value each preset emits when applied straight away. */
  const PresetValues: seq<string> := ["09:00", "12:00", "15:00", "18:00"]

  /** A selection on the hour is emitted as its padded hour followed by ":00". */
  lemma OnTheHour(sel: Selection, hh: string)
    requires sel.minutes == 0 && Pad2(Hour24(sel)) == hh && Pad2(0) == "00"
    ensures ApplyTime(sel) == hh + ":00"
  {
  }

  /** The selection a preset button sets. */
  function PresetSelection(p: Preset): (sel: Selection)
    ensures p in Presets ==> ValidSelection(sel)
  {
    Selection(p.hours, p.minutes, p.period)
  }

  /** A preset on the hour `h` (24-hour) is emitted as `hh` followed by ":00". */
  lemma PresetOnTheHour(i: nat, h: nat, hh: string)
    requires i < |Presets| && Presets[i].minutes == 0
    requires Hour24(PresetSelection(Presets[i])) == h < 100
    requires hh == [DigitChar(h / 10), DigitChar(h % 10)]
    ensures ApplyTime(PresetSelection(Presets[i])) == hh + ":00"
  {
    Pad2Digits(0);
    Pad2Digits(h);
    OnTheHour(PresetSelection(Presets[i]), hh);
  }

  /** Preset `i`, on the hour `h`, is emitted as `PresetValues[i]`. */
  lemma PresetEmitsValue(i: nat, h: nat, hh: string)
    requires i < |Presets| && Presets[i].minutes == 0
    requires Hour24(PresetSelection(Presets[i])) == h < 100
    requires hh == [DigitChar(h / 10), DigitChar(h % 10)]
    requires PresetValues[i] == hh + ":00"
    ensures ApplyTime(PresetSelection(Presets[i])) == PresetValues[i]
  {
    PresetOnTheHour(i, h, hh);
  }

  lemma NineAmEmits()
    ensures ApplyTime(PresetSelection(Presets[0])) == PresetValues[0]
  {
    PresetEmitsValue(0, 9, "09");
  }

  lemma NoonEmits()
    ensures ApplyTime(PresetSelection(Presets[1])) == PresetValues[1]
  {
    PresetEmitsValue(1, 12, "12");
  }

  lemma ThreePmEmits()
    ensures ApplyTime(PresetSelection(Presets[2])) == PresetValues[2]
  {
    PresetEmitsValue(2, 15, "15");
  }

  lemma SixPmEmits()
    ensures ApplyTime(PresetSelection(Presets[3])) == PresetValues[3]
  {
    PresetEmitsValue(3, 18, "18");
  }

  /** Each preset, applied, is emitted as its 24-hour time. */
  lemma PresetApplyTime(i: nat)
    requires i < |Presets|
    ensures ApplyTime(PresetSelection(Presets[i])) == PresetValues[i]
  {
    if i == 0 {
      NineAmEmits();
    } else if i == 1 {
      NoonEmits();
    } else if i == 2 {
      ThreePmEmits();
    } else {
      SixPmEmits();
    }
  }

  /** Picking a quick-select button and applying emits that preset's time. */
  lemma PresetsEmit(st: PickerState, i: nat)
    requires i < |Presets|
    ensures Handle(Handle(st, PickPreset(Presets[i])).state, Apply).emitted == Some(PresetValues[i])
  {
    var picked := Handle(st, PickPreset(Presets[i])).state;
    assert picked.selection == PresetSelection(Presets[i]);
    PresetApplyTime(i);
  }
}

=== FILE: wrappers.dfy ===
/** The optional-value datatype the rest of the model uses for "a parse that may fail"
    and "an event that may or may not emit a value". */
module Wrappers {

  datatype Option<+T> = None | Some(value: T)
}
